=== FILE: README.md ===
# Handicap API: account and entitlement state machine

A Dafny model of the core of the handicap-recommendation back end. Two
Express applications serve the same routes against the same PostgreSQL
schema: `api/index.js` (the Vercel entry point) and `server.js` (the
stand-alone server). The model covers:

- registration with optional one-time invitation codes;
- login;
- the trial gate on saving records: a 7-day window and a quota of 18 saves;
- record history, update and deletion;
- invitation code listing and bulk import;
- the two rule-chain recommenders (Asian handicap and totals).

Each HTTP handler is a pure transition `State × request × now → Reply(result, State)`.
`State` holds the three tables:

- `users`: a sequence, never deleted from; the model gives the i-th row id i + 1 (see the SERIAL line under Left out);
- `invitation_codes`: a sequence in insertion order;
- `handicap_records`: records with explicit ids, plus the next SERIAL value.

The clock is an integer number of milliseconds, supplied as a parameter.
`Handlers.Variant` selects api/index.js (`ApiIndex`) or server.js
(`ServerJs`) where the two files differ.

Modules:

- `Wrappers`: `Option` and `Result`.
- `Text`: JavaScript's `String.prototype.trim`, used on imported codes.
- `Store`: the tables and the single-table operations. These are the
  username and credential lookups, the code redemption `UPDATE`, the
  `INSERT … ON CONFLICT DO NOTHING` loop with a reference definition of
  what it inserts, and `SortNewestFirst`, the `ORDER BY created_at DESC`
  of the reads.
- `Recommend`: the recommenders of both files.
- `Handlers`: one function per route. Their contracts give every error
  they model, `InternalError` (a reply 500) included, as an if-and-only-if,
  and say what changes and what does not.
- `Entitlement`: the invariant `Valid` and its quota part `QuotaSafe`. They say:
  - usernames and codes are unique and record ids are distinct;
  - every record belongs to an existing user;
  - a trial user owns at most `trialCount` ≤ 18 records;
  - (only `Valid`) every used code names a registered user, and no user
    redeemed two codes.

  It also holds preservation lemmas per api/index.js handler: every handler
  keeps `QuotaSafe`, including registration as its statements run, and
  every handler keeps `Valid` when registration is atomic.
- `Traces`: whole runs of requests.
  - api/index.js as written keeps `QuotaSafe` on every trace, so the trial
    quota holds; with atomic registration it keeps `Valid`.
  - In both files an invitation code admits at most one registration, with
    atomic registration and with registration as written.
  - A concrete server.js run breaks the quota.

The code lacks some behaviour one might expect; the model follows the code:

- The recommenders use only strict sign tests on the two deltas, with no
  ±0.05 water thresholds.
- Login does not check trial expiry.
- Update and delete report success even when no row has the id.
- `handicap_change` and `water_change` are stored as the client sent them
  (api/index.js defaults a missing one to 0). They are never computed from
  the initial and current values.
- History has no row limit.
- Rows with equal `created_at` come back in an order PostgreSQL leaves
  unspecified; the model puts the later-inserted row first.
- An import reports only the inserted names, with no per-code error list.
- server.js's save looks at the `user_type` of the request body, not at the
  stored user type.

## Model

| member | source | states |
|---|---|---|
| Text.LeadingSpaces | api/index.js:387 | the count it returns covers only whitespace, and the character after it is not whitespace |
| Text.TrailingSpaces | api/index.js:387 | the count it returns covers only trailing whitespace, and the character before it is not whitespace |
| Text.Trim | api/index.js:387 | the result is a contiguous piece of the input that neither starts nor ends with whitespace, and every character cut off is whitespace |
| Text.TrimIdempotent | api/index.js:391 | trimming a trimmed code changes nothing |
| Text.TrimOfTrimmed | api/index.js:387 | a code with no whitespace at either end is stored unchanged |
| Store.FindLogin | api/index.js:148-155 | finds a user whose username and password both match, the first such one, and reports none exactly when no user matches |
| Store.ConsumeCode | api/index.js:104-107 | every row with the code is marked used by the given user at the given time, all other rows are unchanged, the code is no longer available, and the set of code names is the same |
| Store.InsertAbsent | api/index.js:378-396 | the old table is a prefix of the new one, and one unused row is appended per inserted name; a name is inserted iff it is in the batch and was not already in the table; no name is inserted twice |
| Store.InsertAbsentIsFirstFresh | api/index.js:380-392 | the names the insertion loop reports equal the reference definition `FirstFresh`: each batch name that is neither in the table nor earlier in the batch, in batch order |
| Store.FirstFreshCons | api/index.js:380-392 | the reference definition, which peels names off the end of the batch, agrees with the loop, which takes them from the front |
| Store.Filter | api/index.js:196-197 | the `WHERE` of a read: a row is kept iff it passes the condition, and each kept row occurs exactly as often as in the input, so no row is added or repeated |
| Store.InsertByStamp | api/index.js:198 | inserting a row into a list sorted newest first keeps it sorted and adds exactly that row |
| Store.SortNewestFirst | api/index.js:198 | `ORDER BY created_at DESC`: the result is a permutation of the rows (same multiset) in non-increasing timestamp order |
| Recommend.AsianWithHistory | api/index.js:458-476 | line up with a shorter price gives the upper side and line down with a longer price gives the lower side; otherwise the pick is the upper or lower side iff the history is "win" or "loss" respectively, and "watch" if neither |
| Recommend.SizeWithHistory | api/index.js:478-496 | line and price both up gives over and both down gives under; otherwise the pick is over or under iff the history is "win" or "loss" respectively, and "watch" if neither |
| Recommend.AsianByDeltas | server.js:404-419 | the pick is the upper side iff the line rises and the price falls, the lower side iff the line falls and the price rises, and "watch" otherwise |
| Recommend.SizeByDeltas | server.js:421-436 | the pick is over iff the line and price both rise, under iff both fall, and "watch" otherwise |
| Recommend.HistoryOnlyBreaksTies | api/index.js:465-475 | the api/index.js history rules change the answer only where the server.js delta rules say "watch", and only for the histories "win" and "loss" |
| Recommend.ReversalReversesAdvice | api/index.js:458-496 | reversing both moves and swapping win and loss reverses the advice of every recommender |
| Recommend.SizeMirrorsAsian | api/index.js:478-496 | the totals rules are the Asian rules applied with the water move reversed |
| Handlers.Register | api/index.js:74-139 | a duplicate username, an unknown or used code, or a missing username or password (the 500 of the NOT NULL INSERT) are each the exact failure condition, and a failure changes nothing; on success the new user gets the next id, the code's type (registered with a code, trial otherwise), a trial count of 0 and a 7-day window; a supplied code is marked used by this user, and without a code the codes table is unchanged |
| Handlers.RegisterAsWritten | api/index.js:95-125 | succeeds exactly when the atomic registration does, and then with the same reply; fails with the same error as the atomic registration; a failure creates no user and leaves the records and the record sequence alone; it changes nothing at all except when the failure is the users INSERT after a valid code, and then the code has already been marked used by the would-be user |
| Handlers.Login | api/index.js:142-181 | succeeds iff some user has exactly this username and password; the returned id is such a user; only that user's last-login time changes, and a failure changes nothing |
| Handlers.History | api/index.js:184-213 | fails only with a missing user id or a 500: a missing user id fails exactly in api/index.js (server.js gives an empty list), and an id outside PostgreSQL's INTEGER range is exactly the 500; so every in-range id succeeds, and the result is a permutation of exactly that user's records (each row as often as it is stored) in non-increasing `created_at` order |
| Handlers.StoredRow | api/index.js:259-280 | api/index.js stores the match name, handicap type, recommendation and actual result when truthy, and otherwise the defaults "未命名赛事", "asian", "等待输入" and ""; it stores a missing change field as 0. server.js stores the body as sent. Neither computes the change fields |
| Handlers.SaveRecord | api/index.js:216-303 | fails with no change in each of these cases, and only in them, checked in this order: a user id outside PostgreSQL's INTEGER range (a 500); an unknown user; a gated user past the trial end; a gated user whose count is at 18; and, in server.js, a missing NOT NULL column (a 500). Otherwise it appends one row with the next id, and the user's trial count goes up by exactly 1 if gated and is unchanged otherwise |
| Handlers.UpdateRecord | api/index.js:306-326 | succeeds iff the id is in PostgreSQL's INTEGER range (column length limits are left out), and otherwise fails with a 500 and no change; on success, rows with the id get the new actual result and update time, and nothing else changes |
| Handlers.WithoutId | api/index.js:333 | the surviving records are exactly those whose id differs, each as often as it was stored |
| Handlers.WithoutIdDistinct | api/index.js:333 | deleting rows keeps the survivors' ids distinct |
| Handlers.DeleteRecord | api/index.js:329-344 | succeeds iff the id is in PostgreSQL's INTEGER range, and otherwise fails with a 500 and no change; on success exactly the rows with another id remain, each as often as before; id distinctness is preserved, and the other tables are unchanged |
| Handlers.AvailableCodes | api/index.js:347-364 | lists a permutation of exactly the unused code rows (each as often as it is stored) in non-increasing `created_at` order |
| Handlers.TrimAll | api/index.js:387 | each imported code is trimmed, position by position: no entry starts or ends with whitespace, and each is a contiguous piece of its code with only whitespace cut off either side |
| Handlers.ImportCodes | api/index.js:367-410 | fails only by rejecting the list: api/index.js rejects exactly a missing or empty list, and server.js fails (a 500) exactly on a missing one, each with no change; every other import succeeds, and the inserted names are those of the reference definition, exactly the new names of the batch without repeats; the table gains one unused row per inserted name after the untouched old rows; the owner is "admin" in api/index.js when not given |
| Entitlement.EmptyIsValid | api/index.js:499-540 | the freshly created, empty tables satisfy the invariant |
| Entitlement.RegisteredUsers | api/index.js:120-125 | a successful registration appends one user, whose username was not taken, and keeps every earlier row |
| Entitlement.RegisterKeepsAccounts | api/index.js:74-139 | registration keeps usernames unique, records owned and the trial quota bound |
| Entitlement.RedeemKeepsNames | api/index.js:104-107 | marking a code used renames nothing, so code names stay unique |
| Entitlement.RegisterKeepsQuota | api/index.js:74-139 | the atomic registration keeps the quota part of the invariant |
| Entitlement.RegisterAsWrittenKeepsQuota | api/index.js:95-125 | registration as its statements run keeps the quota part of the invariant, even when it fails after spending a code |
| Entitlement.RedeemKeepsCodes | api/index.js:101-107 | a code redeemed by a new registered user keeps codes unique, every used code backed by a registered user, and one code per user |
| Entitlement.RegisterKeepsCodes | api/index.js:93-114 | registration keeps the three invariants of the invitation codes |
| Entitlement.RegisterPreservesValid | api/index.js:74-139 | registration keeps the whole invariant |
| Entitlement.LoginKeepsQuota | api/index.js:142-181 | login keeps the quota part of the invariant |
| Entitlement.LoginPreservesValid | api/index.js:142-181 | login keeps the whole invariant |
| Entitlement.ApiSaveKeepsQuota | api/index.js:237-288 | an api/index.js save keeps the quota part of the invariant: a trial user's record count stays at or below its trial count, which stays at or below 18 |
| Entitlement.ApiSavePreservesValid | api/index.js:237-288 | an api/index.js save keeps the invariant; in particular a trial user's record count stays at or below the trial count, which stays at or below 18 |
| Entitlement.UpdateKeepsQuota | api/index.js:306-326 | updating a result keeps the quota part of the invariant |
| Entitlement.UpdatePreservesValid | api/index.js:306-326 | updating a result keeps the invariant |
| Entitlement.DeleteKeepsQuota | api/index.js:329-344 | deleting a record keeps the quota part of the invariant |
| Entitlement.FewerRecordsKeepQuota | api/index.js:329-344 | replacing the records by a subset with distinct ids and no more rows per owner keeps the quota part of the invariant |
| Entitlement.DeletePreservesValid | api/index.js:329-344 | deleting a record keeps the invariant |
| Entitlement.ImportedCodes | api/index.js:377-396 | after a successful import, the codes table is the old one followed by one fresh row per inserted name, and those names are new and distinct |
| Entitlement.AppendedNamesUnique | api/index.js:383-386 | appending new, distinct names keeps code names unique |
| Entitlement.AppendFreshCodesKeepsValid | api/index.js:383-386 | appending unused rows with new, distinct names keeps the invariant |
| Entitlement.ImportKeepsQuota | api/index.js:367-410 | a code import keeps the quota part of the invariant, in both files |
| Entitlement.ImportPreservesValid | api/index.js:367-410 | a code import keeps the invariant, in both files |
| Traces.ApiStepPreservesValid | api/index.js:74-410 | every api/index.js request, with atomic registration, keeps the invariant |
| Traces.ApiAccountStep | api/index.js:74-181 | atomic registration and login requests keep the invariant |
| Traces.ApiRecordStep | api/index.js:216-344 | save, update and delete requests keep the invariant |
| Traces.ApiRunPreservesValid | api/index.js:74-410 | from a valid state, every sequence of api/index.js requests with atomic registration ends in a valid state |
| Traces.AsWrittenStepKeepsQuota | api/index.js:74-410 | every api/index.js request as written, registration included, keeps the quota part of the invariant |
| Traces.ApiRecordStepKeepsQuota | api/index.js:216-344 | api/index.js save, update and delete requests keep the quota part of the invariant |
| Traces.AsWrittenRunKeepsQuota | api/index.js:74-410 | every sequence of api/index.js requests as written keeps the quota part of the invariant |
| Traces.ApiTrialQuotaHolds | api/index.js:237-255 | after any run of api/index.js as written, a trial user owns at most as many records as its trial count, and that count is at most 18 |
| Traces.CodeHistoryTransitive | api/index.js:93-114 | the evolution of the codes table composes: names stay at their rows, used rows stay as they were, and appended names are new |
| Traces.RedeemIsCodeHistory | api/index.js:101-107 | redeeming an available code is such an evolution and keeps names unique |
| Traces.AppendIsCodeHistory | api/index.js:383-386 | appending new, distinct names is such an evolution and keeps names unique |
| Traces.RegisterCodeHistory | api/index.js:93-114 | a registration evolves the codes table that way, in both files |
| Traces.ImportCodeHistory | api/index.js:367-410 | an import evolves the codes table that way, in both files |
| Traces.StepCodeHistory | server.js:100-368 | every request of either file evolves the codes table that way |
| Traces.RunCodeHistory | server.js:100-368 | every trace of either file, with atomic registration, evolves the codes table that way |
| Traces.SpentCodeStaysSpent | api/index.js:97 | once a code is used it is never available again |
| Traces.RegisteredCodeSpent | api/index.js:104-107 | after a successful registration with a code, that code is in the table and no row of it is unused |
| Traces.CodeAdmitsOneRegistration | api/index.js:95-113 | after a registration redeemed a code, a registration presenting the same code fails after any trace of either file with atomic registration |
| Traces.AsWrittenRegisterCodeHistory | api/index.js:95-125 | a registration as written, even one that fails after spending its code, evolves the codes table as allowed and keeps names unique |
| Traces.AsWrittenRunCodeHistory | server.js:100-368 | every trace of either file, with registration as written, evolves the codes table as allowed |
| Traces.CodeAdmitsOneRegistrationAsWritten | server.js:119-149 | with registration as written in either file, after a registration redeemed a code, a registration presenting the same code fails after any trace of that file |
| Traces.ServerSaveIgnoresStoredType | server.js:236 | in server.js a save whose body does not claim "trial" succeeds for any known user with an INTEGER id, adds one record for them and leaves the user unchanged, whatever the stored type, expiry or count |
| Traces.ServerSavesWithoutLimit | server.js:219-289 | any number of such saves each add one record and never touch the user |
| Traces.ServerBreaksQuota | server.js:236-253 | a fresh trial user in a valid state saves 19 records in server.js with a trial count of 0, and the state is no longer valid |
| Traces.ServerChargesClaimedTrial | server.js:236-279 | in server.js a registered user whose body claims "trial" is charged one unit of trial quota |
| Traces.RegisterAsWrittenLeaksCode | api/index.js:95-125 | a valid state with unused code "C", and a registration of "bob" with that code but no password: the statements as written mark "C" used by "bob", fail, create no user, and leave a state that is not valid |
| Traces.RegisterFailsWhole | api/index.js:74-139 | a failed atomic registration leaves the codes table as it was, and fails with the same error as the code as written |

## Left out

- The Express layer is not modelled: routing, CORS, JSON response shaping, status codes (errors are `Handlers.Error` values), request logging, the endpoint listing returned by `/`, and the `/api` and `/test` routes of api/index.js and the `/api/test` route of server.js.
- The PostgreSQL pool and schema creation are not modelled. Connection failures are left out. The tables start empty (`Entitlement.EmptyIsValid`).
- The default admin user that `initDatabase` seeds is left out. Seeding is a start-up step, not a request.
- `api/records.js` is not part of this model.
- The `user_fingerprints` table of server.js is not modelled; no handler in the core reads or writes it.
- Concurrency is not modelled. Each request is one atomic step, so interleavings of the multi-statement handlers, and the crash window between the record INSERT and the trial-count UPDATE, are out of scope.
- Handlers.Register: the statement-by-statement failure after the code UPDATE is modelled separately by `Handlers.RegisterAsWritten` (see Findings). `Register` itself is the atomic, intended behaviour.
- Traces.ApiStepPreservesValid: covers api/index.js with the atomic `Register`. With registration as written, the code-backing part of `Valid` fails (Findings); only `QuotaSafe` is proved for that code (`Traces.AsWrittenStepKeepsQuota`).
- Traces.ApiAccountStep: same as above; with registration as written only `Entitlement.RegisterAsWrittenKeepsQuota` holds.
- Traces.RunCodeHistory: covers traces with the atomic `Register` in both files. Registration as written, which spends the code before the users INSERT in both files (server.js:119-149 as in api/index.js), is covered by `Traces.AsWrittenRunCodeHistory`.
- Traces.CodeAdmitsOneRegistration: covers traces with the atomic `Register` in both files. The as-written counterpart for either file is `Traces.CodeAdmitsOneRegistrationAsWritten`.
- Traces.ApiRunPreservesValid: covers traces with the atomic `Register`. The quota part for traces of the code as written is `Traces.AsWrittenRunKeepsQuota`.
- Time is an integer number of milliseconds. The trial window is 7 × 86 400 000 ms, so `setDate(getDate() + 7)` across a daylight-saving change, and time zones, are not modelled.
- `DECIMAL(5,2)` and `DECIMAL(4,2)` rounding, and real-number overflow of those columns, are not modelled. Reals are exact.
- `VARCHAR` length limits are not modelled: username and code columns of 100 characters (api/index.js:503, 516-518), password_hash of 255 (504), match_name of 200 and handicap_type of 20 (527-528), historical_record of 10, recommendation of 50 and actual_result of 10 (535-537). PostgreSQL rejects an over-long value, and the route replies 500 from its catch; the model accepts it.
- Handlers.Register: an over-long username (100) or password (255) is a 500 in the source, and the model registers it.
- Handlers.SaveRecord: an over-long match_name, handicap_type, historical_record, recommendation or actual_result is a 500 in the source, and the model saves it.
- Handlers.UpdateRecord: an actual_result longer than 10 characters is a 500 in the source (api/index.js:306-326), and the model applies it; the success iff covers only the id range.
- Handlers.ImportCodes: the `codes` field is either absent or a list of strings. A value that is present but not an array is not modelled; api/index.js rejects it with the same error as a missing list.
- Inputs that are not strings are not modelled: a code that is not a string (where `code.trim()` throws and the row is skipped), and NaN numbers.
- Recommend.AsianWithHistory, Recommend.SizeWithHistory, Recommend.AsianByDeltas, Recommend.SizeByDeltas: the four prices are exact reals, but the source subtracts whatever the JSON body holds (api/index.js:461-462, 481-482; server.js:406-407, 423-424). JavaScript's `-` coerces those values, and the model covers none of these coercions: a `null` counts as 0; numeric text such as "0.5" becomes its number; a missing field makes the difference NaN, so neither delta rule fires and the history (api/index.js) or "watch" (server.js) decides.
- Handlers.History: the user id arrives as query text; the model takes it as an integer, so non-empty text that is not an integer (a 500 from PostgreSQL) is not modelled. Nor is empty text: api/index.js answers it like a missing id (api/index.js:187), and server.js passes it to PostgreSQL, which fails with a 500. Integers outside the INTEGER range are modelled, as 500s.
- Handlers.SaveRecord: `user_id` is taken as an integer; a non-numeric `user_id`, which makes the first SELECT fail with a 500, is not modelled. Integers outside the INTEGER range are modelled, as 500s.
- Handlers.UpdateRecord: the path id is taken as an integer; non-numeric text, a 500 from PostgreSQL, is not modelled. Integers outside the INTEGER range are modelled, as 500s.
- Handlers.DeleteRecord: as for UpdateRecord, a non-numeric path id is not modelled; out-of-range integers are.
- Handlers.ImportCodes: a `null` `createdBy` in api/index.js is treated like an absent one, getting "admin". The default-parameter syntax only replaces `undefined`, so a literal `null` would be stored as null.
- Handlers.ImportCodes: a per-row insert failure inside the loop (caught and logged, the row skipped) is not modelled. The one such failure with string codes is a code or `createdBy` longer than the 100 characters of `VARCHAR(100)` (api/index.js:516-517), which the model accepts.
- SERIAL gaps are not modelled. A failed INSERT consumes a sequence value in PostgreSQL, but not in the model. For records this is a failed records INSERT. For users it is a registration whose INSERT fails on NOT NULL (a missing username or password). After such a failure, the real id of the next user is one more than the model's i + 1.
- `/recommend` responses carry a `timestamp` in api/index.js and a `details` text; only the pick is modelled. `Recommend.Label` gives its response string.
- The records listed by history and the codes listed by `GET /invitation-codes` are whole rows. The column projections of the SELECTs are not modelled.

## Findings

| source | as written | input that shows it | evidently intended | confidence | as-written member | corrected member |
|---|---|---|---|---|---|---|
| api/index.js:95-125 | the invitation code is marked used before the users INSERT runs, outside any transaction, so an INSERT that fails (missing `password`, NOT NULL on `password_hash`) leaves the code spent with no user behind it; server.js:119-149 has the same order | tables with one unused code "C" and no users; `POST /register` with `{username: "bob", invitationCode: "C"}` and no password | a failed registration leaves the code unused (redeem and insert atomically) | high by reading; not executed | Handlers.RegisterAsWritten, shown by Traces.RegisterAsWrittenLeaksCode | Handlers.Register, with Traces.RegisterFailsWhole and Entitlement.RegisterPreservesValid |

=== FILE: entitlement.dfy ===
/**
 * The invariants of the account and entitlement state machine, and which
 * variant keeps them. Every handler of api/index.js preserves `QuotaSafe`,
 * registration as written included, so over any sequence of requests a
 * trial user never holds more records than its trial count and never counts
 * past the quota. With atomic registration the handlers also preserve the
 * code part of `Valid`. server.js trusts the request body for the trial
 * check, and the quota part of `Valid` fails for it.
 */
module Entitlement {
  import opened Wrappers
  import opened Store
  import opened Handlers

  // ---------------------------------------------------------------- the invariant

  predicate UniqueUsernames(users: seq<User>) {
    forall i, j :: 0 <= i < j < |users| ==> users[i].username != users[j].username
  }

  predicate UniqueCodes(codes: seq<Code>) {
    forall i, j :: 0 <= i < j < |codes| ==> codes[i].code != codes[j].code
  }

  /** Every record belongs to an existing user and has an id the SERIAL sequence has handed out. */
  predicate RecordsOwned(s: State) {
    forall i :: 0 <= i < |s.records| ==> HasUser(s, s.records[i].userId) && s.records[i].id < s.nextRecordId
  }

  /** A trial user owns at most as many records as its trial count, which is at most the quota. */
  predicate QuotaHeld(s: State) {
    forall i :: 0 <= i < |s.users| && s.users[i].userType == Trial ==>
      Owned(s.records, i + 1) <= s.users[i].trialCount <= TrialQuota
  }

  predicate RegisteredName(users: seq<User>, name: string) {
    exists j :: 0 <= j < |users| && users[j].username == name && users[j].userType == Registered
  }

  /** A used code names the registered user who redeemed it. */
  predicate CodesBacked(s: State) {
    forall i :: 0 <= i < |s.codes| && s.codes[i].isUsed ==>
      s.codes[i].usedBy.Some? && RegisteredName(s.users, s.codes[i].usedBy.value)
  }

  /** No user has redeemed two codes. */
  predicate OneCodePerUser(codes: seq<Code>) {
    forall i, j :: 0 <= i < j < |codes| && codes[i].isUsed && codes[j].isUsed ==> codes[i].usedBy != codes[j].usedBy
  }

  /** The part of the invariant about accounts, records and the trial quota, with unique code names. */
  predicate QuotaSafe(s: State) {
    && UniqueUsernames(s.users)
    && UniqueCodes(s.codes)
    && DistinctIds(s.records)
    && RecordsOwned(s)
    && QuotaHeld(s)
  }

  predicate Valid(s: State) {
    && QuotaSafe(s)
    && CodesBacked(s)
    && OneCodePerUser(s.codes)
  }

  /** The tables as the application starts them: empty. */
  lemma EmptyIsValid()
    ensures Valid(State([], [], [], 1))
  {
  }

  // ---------------------------------------------------------------- helpers

  /** Rows of `a` keep their names and types in `b`, which may have more rows. */
  predicate AccountsKept(a: seq<User>, b: seq<User>) {
    |a| <= |b| && forall i :: 0 <= i < |a| ==> b[i].username == a[i].username && b[i].userType == a[i].userType
  }

  lemma NamesKept(a: seq<User>, b: seq<User>, name: string)
    requires AccountsKept(a, b)
    ensures UsernameTaken(a, name) ==> UsernameTaken(b, name)
    ensures RegisteredName(a, name) ==> RegisteredName(b, name)
  {
    if UsernameTaken(a, name) {
      var i :| 0 <= i < |a| && a[i].username == name;
      assert b[i].username == name;
    }
    if RegisteredName(a, name) {
      var i :| 0 <= i < |a| && a[i].username == name && a[i].userType == Registered;
      assert b[i].username == name && b[i].userType == Registered;
    }
  }

  /** Used codes stay backed when users are only appended or touched in non-identifying columns. */
  lemma BackingKept(s: State, s': State)
    requires CodesBacked(s)
    requires s'.codes == s.codes
    requires AccountsKept(s.users, s'.users)
    ensures CodesBacked(s')
  {
    forall i | 0 <= i < |s'.codes| && s'.codes[i].isUsed
      ensures s'.codes[i].usedBy.Some? && RegisteredName(s'.users, s'.codes[i].usedBy.value)
    {
      NamesKept(s.users, s'.users, s.codes[i].usedBy.value);
    }
  }

  lemma {:induction false} OwnedAppend(records: seq<Record>, row: Record, uid: int)
    ensures Owned(records + [row], uid) == Owned(records, uid) + (if row.userId == uid then 1 else 0)
  {
    if |records| > 0 {
      assert (records + [row])[1..] == records[1..] + [row];
      OwnedAppend(records[1..], row, uid);
    } else {
      assert (records + [row])[1..] == [];
    }
  }

  lemma {:induction false} OwnedNone(records: seq<Record>, uid: int)
    requires forall i :: 0 <= i < |records| ==> records[i].userId != uid
    ensures Owned(records, uid) == 0
  {
    if |records| > 0 {
      OwnedNone(records[1..], uid);
    }
  }

  lemma {:induction false} OwnedSameOwners(a: seq<Record>, b: seq<Record>, uid: int)
    requires |a| == |b|
    requires forall i :: 0 <= i < |a| ==> a[i].userId == b[i].userId
    ensures Owned(a, uid) == Owned(b, uid)
  {
    if |a| > 0 {
      OwnedSameOwners(a[1..], b[1..], uid);
    }
  }

  lemma {:induction false} OwnedAfterDelete(records: seq<Record>, id: int, uid: int)
    ensures Owned(WithoutId(records, id), uid) <= Owned(records, uid)
  {
    if |records| > 0 {
      var rest := WithoutId(records[1..], id);
      OwnedAfterDelete(records[1..], id, uid);
      if records[0].id != id {
        assert WithoutId(records, id) == [records[0]] + rest;
        assert ([records[0]] + rest)[1..] == rest;
      } else {
        assert WithoutId(records, id) == rest;
      }
    }
  }

  // ---------------------------------------------------------------- one handler at a time

  /** The users table after a successful registration: the old rows, then the new user. */
  lemma RegisteredUsers(s: State, req: Registration, now: int)
    requires Register(s, req, now).result.Ok?
    ensures var s' := Register(s, req, now).state;
      && |s'.users| == |s.users| + 1
      && (forall i :: 0 <= i < |s.users| ==> s'.users[i] == s.users[i])
      && AccountsKept(s.users, s'.users)
      && s'.users[|s.users|].username == req.username.value
      && !UsernameTaken(s.users, req.username.value)
  {
    var s' := Register(s, req, now).state;
    forall i | 0 <= i < |s.users| ensures s'.users[i] == s.users[i] {
      assert s'.users[..|s.users|][i] == s'.users[i];
    }
  }

  /** Registration keeps the invariants of the users and records tables. */
  lemma RegisterKeepsAccounts(s: State, req: Registration, now: int)
    requires QuotaSafe(s)
    ensures var s' := Register(s, req, now).state;
      UniqueUsernames(s'.users) && DistinctIds(s'.records) && RecordsOwned(s') && QuotaHeld(s')
  {
    var r := Register(s, req, now);
    if r.result.Ok? {
      var s' := r.state;
      var n := |s.users|;
      RegisteredUsers(s, req, now);
      assert UniqueUsernames(s'.users) by {
        forall i, j | 0 <= i < j < |s'.users| ensures s'.users[i].username != s'.users[j].username {
          if j == n {
            assert s.users[i].username != req.username.value;
          }
        }
      }
      assert QuotaHeld(s') by {
        forall i | 0 <= i < |s'.users| && s'.users[i].userType == Trial
          ensures Owned(s'.records, i + 1) <= s'.users[i].trialCount <= TrialQuota
        {
          if i == n {
            OwnedNone(s.records, n + 1);
          }
        }
      }
    }
  }

  /** Redeeming a code changes no name, so the names stay unique. */
  lemma RedeemKeepsNames(a: seq<Code>, b: seq<Code>, c: string, usedBy: Option<string>, now: int)
    requires UniqueCodes(a) && RedeemedBy(a, b, c, usedBy, now)
    ensures UniqueCodes(b)
  {
    forall i, j | 0 <= i < j < |b| ensures b[i].code != b[j].code {
      assert b[i].code == a[i].code && b[j].code == a[j].code;
    }
  }

  /** A code redeemed by a newly registered, previously unknown user keeps the invariants of the codes. */
  lemma RedeemKeepsCodes(s: State, s': State, c: string, name: string, now: int)
    requires UniqueCodes(s.codes) && CodesBacked(s) && OneCodePerUser(s.codes)
    requires RedeemedBy(s.codes, s'.codes, c, Some(name), now)
    requires AccountsKept(s.users, s'.users)
    requires RegisteredName(s'.users, name)
    requires !UsernameTaken(s.users, name)
    ensures UniqueCodes(s'.codes) && CodesBacked(s') && OneCodePerUser(s'.codes)
  {
    RedeemKeepsNames(s.codes, s'.codes, c, Some(name), now);
    assert CodesBacked(s') by {
      forall i | 0 <= i < |s'.codes| && s'.codes[i].isUsed
        ensures s'.codes[i].usedBy.Some? && RegisteredName(s'.users, s'.codes[i].usedBy.value)
      {
        if s.codes[i].code != c {
          NamesKept(s.users, s'.users, s.codes[i].usedBy.value);
        }
      }
    }
    assert OneCodePerUser(s'.codes) by {
      forall i, j | 0 <= i < j < |s'.codes| && s'.codes[i].isUsed && s'.codes[j].isUsed
        ensures s'.codes[i].usedBy != s'.codes[j].usedBy
      {
        if s.codes[i].code == c {
          assert RegisteredName(s.users, s.codes[j].usedBy.value);
        } else if s.codes[j].code == c {
          assert RegisteredName(s.users, s.codes[i].usedBy.value);
        }
      }
    }
  }

  /** Registration keeps the invariants of the invitation codes. */
  lemma RegisterKeepsCodes(s: State, req: Registration, now: int)
    requires Valid(s)
    ensures var s' := Register(s, req, now).state;
      UniqueCodes(s'.codes) && CodesBacked(s') && OneCodePerUser(s'.codes)
  {
    var r := Register(s, req, now);
    if r.result.Ok? {
      var s' := r.state;
      var name := req.username.value;
      var n := |s.users|;
      RegisteredUsers(s, req, now);
      if Truthy(req.invitationCode) {
        assert s'.users[n].userType == Registered;
        RedeemKeepsCodes(s, s', req.invitationCode.value, name, now);
      } else {
        BackingKept(s, s');
      }
    }
  }

  /** Registration (the atomic one) keeps the quota part of the invariant. */
  lemma RegisterKeepsQuota(s: State, req: Registration, now: int)
    requires QuotaSafe(s)
    ensures QuotaSafe(Register(s, req, now).state)
  {
    RegisterKeepsAccounts(s, req, now);
    var r := Register(s, req, now);
    if r.result.Ok? && Truthy(req.invitationCode) {
      RedeemKeepsNames(s.codes, r.state.codes, req.invitationCode.value, req.username, now);
    }
  }

  /**
   * Registration as the statements run keeps the quota part of the
   * invariant too: when it fails after spending a code, only the codes table
   * has changed, and no code name has.
   */
  lemma RegisterAsWrittenKeepsQuota(s: State, req: Registration, now: int)
    requires QuotaSafe(s)
    ensures QuotaSafe(RegisterAsWritten(s, req, now).state)
  {
    var r := RegisterAsWritten(s, req, now);
    if r.result.Ok? {
      RegisterKeepsQuota(s, req, now);
    } else if r.result == Err(InternalError) && Truthy(req.invitationCode) {
      RedeemKeepsNames(s.codes, r.state.codes, req.invitationCode.value, req.username, now);
      assert r.state == s.(codes := r.state.codes);
    }
  }

  /** Registration (the atomic one) keeps every invariant, in both variants. */
  lemma RegisterPreservesValid(s: State, req: Registration, now: int)
    requires Valid(s)
    ensures Valid(Register(s, req, now).state)
  {
    RegisterKeepsQuota(s, req, now);
    RegisterKeepsCodes(s, req, now);
  }

  /** Login only stamps the last login time, so it keeps the quota part of the invariant, in both variants. */
  lemma LoginKeepsQuota(s: State, username: Option<string>, password: Option<string>, now: int)
    requires QuotaSafe(s)
    ensures QuotaSafe(Login(s, username, password, now).state)
  {
    var r := Login(s, username, password, now);
    if r.result.Ok? {
      var s' := r.state;
      assert AccountsKept(s.users, s'.users);
      assert forall i :: 0 <= i < |s.users| ==> s'.users[i].trialCount == s.users[i].trialCount;
    }
  }

  /** Login keeps every invariant, in both variants. */
  lemma LoginPreservesValid(s: State, username: Option<string>, password: Option<string>, now: int)
    requires Valid(s)
    ensures Valid(Login(s, username, password, now).state)
  {
    LoginKeepsQuota(s, username, password, now);
    var r := Login(s, username, password, now);
    if r.result.Ok? {
      assert AccountsKept(s.users, r.state.users);
      BackingKept(s, r.state);
    }
  }

  /** A save in api/index.js keeps the quota part of the invariant: the quota check comes before the one-record increment. */
  lemma ApiSaveKeepsQuota(s: State, req: RecordRequest, now: int)
    requires QuotaSafe(s)
    ensures QuotaSafe(SaveRecord(ApiIndex, s, req, now).state)
  {
    var r := SaveRecord(ApiIndex, s, req, now);
    if r.result.Ok? {
      var s' := r.state;
      var uid := req.userId.value;
      var row := StoredRow(ApiIndex, req, uid, s.nextRecordId, now);
      assert AccountsKept(s.users, s'.users);
      assert UniqueUsernames(s'.users) by {
        forall i, j | 0 <= i < j < |s'.users| ensures s'.users[i].username != s'.users[j].username {
          assert s'.users[i].username == s.users[i].username && s'.users[j].username == s.users[j].username;
        }
      }
      assert DistinctIds(s'.records) by {
        forall i, j | 0 <= i < j < |s'.records| ensures s'.records[i].id != s'.records[j].id {
          if j == |s.records| {
            assert s.records[i].id < s.nextRecordId;
          } else {
            assert s'.records[i] == s.records[i] && s'.records[j] == s.records[j];
          }
        }
      }
      assert RecordsOwned(s') by {
        forall i | 0 <= i < |s'.records|
          ensures HasUser(s', s'.records[i].userId) && s'.records[i].id < s'.nextRecordId
        {
          if i < |s.records| { assert s'.records[i] == s.records[i]; }
        }
      }
      assert QuotaHeld(s') by {
        forall i | 0 <= i < |s'.users| && s'.users[i].userType == Trial
          ensures Owned(s'.records, i + 1) <= s'.users[i].trialCount <= TrialQuota
        {
          OwnedAppend(s.records, row, i + 1);
        }
      }
    }
  }

  /** A save in api/index.js keeps every invariant. */
  lemma ApiSavePreservesValid(s: State, req: RecordRequest, now: int)
    requires Valid(s)
    ensures Valid(SaveRecord(ApiIndex, s, req, now).state)
  {
    ApiSaveKeepsQuota(s, req, now);
    var r := SaveRecord(ApiIndex, s, req, now);
    if r.result.Ok? {
      assert AccountsKept(s.users, r.state.users);
      BackingKept(s, r.state);
    }
  }

  /** Updating a record's result keeps the quota part of the invariant, in both variants. */
  lemma UpdateKeepsQuota(s: State, id: int, actualResult: Option<string>, now: int)
    requires QuotaSafe(s)
    ensures QuotaSafe(UpdateRecord(s, id, actualResult, now).state)
  {
    var s' := UpdateRecord(s, id, actualResult, now).state;
    if IsInteger(id) {
      assert forall i :: 0 <= i < |s.records| ==> s'.records[i].userId == s.records[i].userId && s'.records[i].id == s.records[i].id;
      forall uid { OwnedSameOwners(s.records, s'.records, uid); }
      assert DistinctIds(s'.records);
    }
  }

  /** Updating a record's result keeps every invariant, in both variants. */
  lemma UpdatePreservesValid(s: State, id: int, actualResult: Option<string>, now: int)
    requires Valid(s)
    ensures Valid(UpdateRecord(s, id, actualResult, now).state)
  {
    UpdateKeepsQuota(s, id, actualResult, now);
  }

  /** Replacing the records by a subset with distinct ids and no more rows per owner keeps the quota part. */
  lemma FewerRecordsKeepQuota(s: State, records: seq<Record>)
    requires QuotaSafe(s)
    requires forall rec :: rec in records ==> rec in s.records
    requires DistinctIds(records)
    requires forall uid :: Owned(records, uid) <= Owned(s.records, uid)
    ensures QuotaSafe(s.(records := records))
  {
    var s' := s.(records := records);
    assert RecordsOwned(s') by {
      forall i | 0 <= i < |records|
        ensures HasUser(s', records[i].userId) && records[i].id < s'.nextRecordId
      {
        assert records[i] in s.records;
      }
    }
  }

  /** Deleting a record keeps the quota part of the invariant, in both variants. */
  lemma DeleteKeepsQuota(s: State, id: int)
    requires QuotaSafe(s)
    ensures QuotaSafe(DeleteRecord(s, id).state)
  {
    if IsInteger(id) {
      var rest := WithoutId(s.records, id);
      WithoutIdDistinct(s.records, id);
      forall uid ensures Owned(rest, uid) <= Owned(s.records, uid) {
        OwnedAfterDelete(s.records, id, uid);
      }
      FewerRecordsKeepQuota(s, rest);
      assert DeleteRecord(s, id).state == s.(records := rest);
    }
  }

  /** Deleting a record keeps every invariant, in both variants. */
  lemma DeletePreservesValid(s: State, id: int)
    requires Valid(s)
    ensures Valid(DeleteRecord(s, id).state)
  {
    DeleteKeepsQuota(s, id);
  }

  /**
   * `b` is `a` followed by one unused row per name of `added`, stamped `owner` and `now`;
   * the added names are distinct and none was already in `a`.
   */
  predicate AppendsFresh(a: seq<Code>, b: seq<Code>, added: seq<string>, owner: Option<string>, now: int) {
    && |b| == |a| + |added|
    && (forall i :: 0 <= i < |a| ==> b[i] == a[i])
    && (forall i :: |a| <= i < |b| ==> b[i] == FreshCode(added[i - |a|], owner, now))
    && (forall x :: x in added ==> x !in CodeSet(a))
    && NoDuplicates(added)
  }

  /** The codes table after a successful import: the old rows, then one fresh row per inserted name. */
  lemma ImportedCodes(v: Variant, s: State, codes: Option<seq<string>>, createdBy: Option<string>, now: int)
    requires ImportCodes(v, s, codes, createdBy, now).result.Ok?
    ensures var r := ImportCodes(v, s, codes, createdBy, now);
      AppendsFresh(s.codes, r.state.codes, r.result.value, ImportOwner(v, createdBy), now)
  {
    var r := ImportCodes(v, s, codes, createdBy, now);
    var n := |s.codes|;
    forall i | 0 <= i < n ensures r.state.codes[i] == s.codes[i] {
      assert r.state.codes[..n][i] == r.state.codes[i];
    }
    forall i | n <= i < |r.state.codes|
      ensures r.state.codes[i] == FreshCode(r.result.value[i - n], ImportOwner(v, createdBy), now)
    {
      var k := i - n;
      assert r.state.codes[n + k] == FreshCode(r.result.value[k], ImportOwner(v, createdBy), now);
    }
  }

  /** Appending unused rows whose names are new and distinct keeps every invariant. */
  lemma AppendFreshCodesKeepsValid(s: State, s': State, added: seq<string>, owner: Option<string>, now: int)
    requires Valid(s)
    requires s'.users == s.users && s'.records == s.records && s'.nextRecordId == s.nextRecordId
    requires AppendsFresh(s.codes, s'.codes, added, owner, now)
    ensures Valid(s')
  {
    AppendedNamesUnique(s.codes, s'.codes, added, owner, now);
  }

  /** Appending rows whose names are new and distinct keeps the names of a table unique. */
  lemma AppendedNamesUnique(a: seq<Code>, b: seq<Code>, added: seq<string>, owner: Option<string>, now: int)
    requires UniqueCodes(a)
    requires AppendsFresh(a, b, added, owner, now)
    ensures UniqueCodes(b)
  {
    var n := |a|;
    forall i, j | 0 <= i < j < |b| ensures b[i].code != b[j].code {
      if j >= n {
        assert b[j].code == added[j - n];
        if i >= n {
          assert b[i].code == added[i - n];
        } else {
          assert a[i].code in CodeSet(a);
          assert added[j - n] in added;
        }
      }
    }
  }

  /** Importing codes only appends rows with new names, so it keeps the quota part of the invariant, in both variants. */
  lemma ImportKeepsQuota(v: Variant, s: State, codes: Option<seq<string>>, createdBy: Option<string>, now: int)
    requires QuotaSafe(s)
    ensures QuotaSafe(ImportCodes(v, s, codes, createdBy, now).state)
  {
    var r := ImportCodes(v, s, codes, createdBy, now);
    if r.result.Ok? {
      ImportedCodes(v, s, codes, createdBy, now);
      AppendedNamesUnique(s.codes, r.state.codes, r.result.value, ImportOwner(v, createdBy), now);
    }
  }

  /** Importing codes only appends unused rows with new names, so it keeps every invariant, in both variants. */
  lemma ImportPreservesValid(v: Variant, s: State, codes: Option<seq<string>>, createdBy: Option<string>, now: int)
    requires Valid(s)
    ensures Valid(ImportCodes(v, s, codes, createdBy, now).state)
  {
    var r := ImportCodes(v, s, codes, createdBy, now);
    if r.result.Ok? {
      ImportedCodes(v, s, codes, createdBy, now);
      AppendFreshCodesKeepsValid(s, r.state, r.result.value, ImportOwner(v, createdBy), now);
    }
  }
}

=== FILE: handlers.dfy ===
/**
 * The request handlers of both variants of the API as pure transitions
 * `State × request × now → (result, State)`. Each handler is one atomic step.
 * `Variant` selects between api/index.js and server.js where they differ:
 * the trial check on record saves, the defaults of a saved record, the
 * validation of history queries and code imports, and trimming of codes.
 */
module Handlers {
  import opened Wrappers
  import opened Store
  import Text

  datatype Variant = ApiIndex | ServerJs

  datatype Error =
    | DuplicateUsername
    | InvalidInvitationCode
    | InvalidCredentials
    | MissingUserId
    | UserNotFound
    | TrialExpired
    | TrialQuotaExhausted
    | InvalidCodeList
    | InternalError        // a 500: a NOT NULL violation or a TypeError

  datatype Reply<+T> = Reply(result: Result<T, Error>, state: State)

  /** JavaScript truthiness of an optional string: absent, null and "" are falsy. */
  predicate Truthy(o: Option<string>) {
    o.Some? && o.value != ""
  }

  // ---------------------------------------------------------------- registration

  datatype Registration = Registration(username: Option<string>, password: Option<string>, invitationCode: Option<string>)

  /** `SELECT id FROM users WHERE username = $1`; a null username matches nothing. */
  predicate Duplicate(s: State, req: Registration) {
    req.username.Some? && UsernameTaken(s.users, req.username.value)
  }

  /** A code was supplied and no unused row carries it. */
  predicate BadCode(s: State, req: Registration) {
    Truthy(req.invitationCode) && !CodeAvailable(s.codes, req.invitationCode.value)
  }

  /** The row the users INSERT writes; the trial window is set whatever the user type. */
  function NewUser(name: string, password: string, kind: UserType, now: int): User {
    User(name, password, kind, 0, Some(now), Some(now + TrialLength), None)
  }

  /** What a successful registration leaves in the users table. */
  predicate Enrolled(s: State, s': State, req: Registration, now: int)
    requires req.username.Some? && req.password.Some?
  {
    && |s'.users| == |s.users| + 1
    && s'.users[..|s.users|] == s.users
    && var u := s'.users[|s.users|];
    && u.username == req.username.value
    && u.password == req.password.value
    && (u.userType == Registered <==> Truthy(req.invitationCode))
    && (u.userType == Trial <==> !Truthy(req.invitationCode))
    && u.trialCount == 0
    && u.trialStart == Some(now)
    && u.trialEnd == Some(now + TrialLength)
    && u.lastLogin.None?
  }

  /**
   * POST /register, as one atomic step. A duplicate username or an unknown or
   * used code fails; a missing username or password fails on the NOT NULL
   * columns of users. Every failure leaves the state as it was. On success the
   * code, if any, is marked used by the new user, who is `registered`;
   * without a code the user is `trial`.
   */
  function Register(s: State, req: Registration, now: int): (r: Reply<nat>)
    ensures r.result.Err? ==> r.state == s
    ensures r.result == Err(DuplicateUsername) <==> Duplicate(s, req)
    ensures r.result == Err(InvalidInvitationCode) <==> !Duplicate(s, req) && BadCode(s, req)
    ensures r.result == Err(InternalError) <==>
              !Duplicate(s, req) && !BadCode(s, req) && (req.username.None? || req.password.None?)
    ensures r.result.Ok? <==>
              !Duplicate(s, req) && !BadCode(s, req) && req.username.Some? && req.password.Some?
    ensures r.result.Ok? ==> r.result.value == |s.users| + 1 && Enrolled(s, r.state, req, now)
    ensures r.result.Ok? && Truthy(req.invitationCode) ==>
              RedeemedBy(s.codes, r.state.codes, req.invitationCode.value, req.username, now)
    ensures r.result.Ok? && !Truthy(req.invitationCode) ==> r.state.codes == s.codes
    ensures r.state.records == s.records && r.state.nextRecordId == s.nextRecordId
  {
    if Duplicate(s, req) then Reply(Err(DuplicateUsername), s)
    else if BadCode(s, req) then Reply(Err(InvalidInvitationCode), s)
    else if req.username.None? || req.password.None? then Reply(Err(InternalError), s)
    else
      var redeem := Truthy(req.invitationCode);
      var kind := if redeem then Registered else Trial;
      var codes := if redeem then ConsumeCode(s.codes, req.invitationCode.value, req.username, now) else s.codes;
      var u := NewUser(req.username.value, req.password.value, kind, now);
      Reply(Ok(|s.users| + 1), s.(users := s.users + [u], codes := codes))
  }

  /**
   * POST /register as the statements run: the code is marked used before the
   * users INSERT, so when that INSERT fails on a missing username or password
   * the code stays consumed although no user was created.
   */
  function RegisterAsWritten(s: State, req: Registration, now: int): (r: Reply<nat>)
    ensures r.result.Ok? <==> Register(s, req, now).result.Ok?
    ensures r.result.Ok? ==> r == Register(s, req, now)
    ensures r.result.Err? ==> r.result == Register(s, req, now).result
    ensures r.result.Err? ==> r.state.users == s.users && r.state.records == s.records && r.state.nextRecordId == s.nextRecordId
    ensures r.result.Err? && (r.result != Err(InternalError) || !Truthy(req.invitationCode)) ==> r.state == s
    ensures r.result == Err(InternalError) && Truthy(req.invitationCode) ==>
              RedeemedBy(s.codes, r.state.codes, req.invitationCode.value, req.username, now)
  {
    if Duplicate(s, req) then Reply(Err(DuplicateUsername), s)
    else if BadCode(s, req) then Reply(Err(InvalidInvitationCode), s)
    else
      var redeem := Truthy(req.invitationCode);
      var kind := if redeem then Registered else Trial;
      var codes := if redeem then ConsumeCode(s.codes, req.invitationCode.value, req.username, now) else s.codes;
      if req.username.None? || req.password.None? then Reply(Err(InternalError), s.(codes := codes))
      else
        var u := NewUser(req.username.value, req.password.value, kind, now);
        Reply(Ok(|s.users| + 1), s.(users := s.users + [u], codes := codes))
  }

  // ---------------------------------------------------------------- login

  /**
   * POST /login: succeeds iff some user has exactly this username and
   * password, and then changes only that user's last login time. There is no
   * trial-expiry check.
   */
  function Login(s: State, username: Option<string>, password: Option<string>, now: int): (r: Reply<nat>)
    ensures r.result.Ok? <==>
              username.Some? && password.Some? &&
              exists i :: 0 <= i < |s.users| && Credentials(s.users[i], username.value, password.value)
    ensures r.result.Err? ==> r.result.error == InvalidCredentials && r.state == s
    ensures r.result.Ok? ==>
              var id := r.result.value;
              && HasUser(s, id)
              && Credentials(UserOf(s, id), username.value, password.value)
              && |r.state.users| == |s.users|
              && r.state.users[id - 1] == UserOf(s, id).(lastLogin := Some(now))
              && (forall j :: 0 <= j < |s.users| && j != id - 1 ==> r.state.users[j] == s.users[j])
    ensures r.state.codes == s.codes && r.state.records == s.records && r.state.nextRecordId == s.nextRecordId
  {
    if username.None? || password.None? then Reply(Err(InvalidCredentials), s)
    else
      match FindLogin(s.users, username.value, password.value)
      case None => Reply(Err(InvalidCredentials), s)
      case Some(i) => Reply(Ok(i + 1), s.(users := s.users[i := s.users[i].(lastLogin := Some(now))]))
  }

  // ---------------------------------------------------------------- history

  function CreatedAt(r: Record): int {
    r.createdAt
  }

  /** The WHERE clause `user_id = uid`. */
  function OwnedBy(uid: int): Record -> bool {
    (rec: Record) => rec.userId == uid
  }

  /**
   * GET /history: the user's records, `ORDER BY created_at DESC`.
   * api/index.js rejects a missing user id; in server.js a missing id
   * compares with NULL and matches nothing. An id outside the INTEGER range
   * makes the query fail in both.
   */
  function History(v: Variant, s: State, userId: Option<int>): (r: Result<seq<Record>, Error>)
    ensures r == Err(MissingUserId) <==> v.ApiIndex? && userId.None?
    ensures r == Err(InternalError) <==> userId.Some? && !IsInteger(userId.value)
    ensures r.Err? ==> r.error == MissingUserId || r.error == InternalError
    ensures r.Ok? && userId.None? ==> r.value == []
    ensures r.Ok? && userId.Some? ==>
              && multiset(r.value) == multiset(Filter(s.records, OwnedBy(userId.value)))
              && (forall rec :: rec in r.value <==> rec in s.records && rec.userId == userId.value)
              && NewestFirstOrder(r.value, CreatedAt)
  {
    if userId.None? then
      if v.ApiIndex? then Err(MissingUserId) else Ok([])
    else if !IsInteger(userId.value) then Err(InternalError)
    else
      var mine := Filter(s.records, OwnedBy(userId.value));
      var r := SortNewestFirst(mine, CreatedAt);
      assert forall rec :: rec in r <==> rec in mine by {
        forall rec ensures rec in r <==> rec in mine {
          assert rec in r <==> rec in multiset(r);
          assert rec in mine <==> rec in multiset(mine);
        }
      }
      Ok(r)
  }

  // ---------------------------------------------------------------- records

  /** The body of POST /records. `userType` is only read by server.js. */
  datatype RecordRequest = RecordRequest(
    userId: Option<int>,
    userType: Option<string>,
    matchName: Option<string>,
    handicapType: Option<string>,
    initialHandicap: Option<real>,
    currentHandicap: Option<real>,
    initialWater: Option<real>,
    currentWater: Option<real>,
    handicapChange: Option<real>,
    waterChange: Option<real>,
    historicalRecord: Option<string>,
    recommendation: Option<string>,
    actualResult: Option<string>)

  datatype Saved = Saved(recordId: nat, createdAt: int)

  /**
   * Whether the trial checks and the counter increment apply: api/index.js
   * asks the stored user type, server.js believes the request body.
   */
  predicate TrialGated(v: Variant, u: User, req: RecordRequest) {
    match v
    case ApiIndex => u.userType == Trial
    case ServerJs => req.userType == Some("trial")
  }

  /** server.js passes the NOT NULL columns through; a missing one makes the INSERT fail. */
  predicate RowInsertable(v: Variant, req: RecordRequest) {
    v.ApiIndex? || (req.matchName.Some? && req.handicapType.Some?)
  }

  /**
   * The row a save inserts. api/index.js fills falsy fields with defaults;
   * server.js stores the body as it came. The change fields are stored as
   * supplied in both, never computed from the initial and current values.
   */
  function StoredRow(v: Variant, req: RecordRequest, uid: nat, id: nat, now: int): (row: Record)
    requires RowInsertable(v, req)
    ensures row.id == id && row.userId == uid && row.createdAt == now && row.updatedAt == now
    ensures row.initialHandicap == req.initialHandicap && row.currentHandicap == req.currentHandicap
    ensures row.initialWater == req.initialWater && row.currentWater == req.currentWater
    ensures row.historicalRecord == req.historicalRecord
    ensures v.ApiIndex? ==>
              && (Truthy(req.matchName) ==> row.matchName == req.matchName.value)
              && (!Truthy(req.matchName) ==> row.matchName == "未命名赛事")
              && (Truthy(req.handicapType) ==> row.handicapType == req.handicapType.value)
              && (!Truthy(req.handicapType) ==> row.handicapType == "asian")
              && (req.handicapChange.Some? ==> row.handicapChange == req.handicapChange)
              && (req.handicapChange.None? ==> row.handicapChange == Some(0.0))
              && (req.waterChange.Some? ==> row.waterChange == req.waterChange)
              && (req.waterChange.None? ==> row.waterChange == Some(0.0))
              && (Truthy(req.recommendation) ==> row.recommendation == req.recommendation)
              && (!Truthy(req.recommendation) ==> row.recommendation == Some("等待输入"))
              && (Truthy(req.actualResult) ==> row.actualResult == req.actualResult)
              && (!Truthy(req.actualResult) ==> row.actualResult == Some(""))
    ensures v.ServerJs? ==>
              && Some(row.matchName) == req.matchName && Some(row.handicapType) == req.handicapType
              && row.handicapChange == req.handicapChange && row.waterChange == req.waterChange
              && row.recommendation == req.recommendation && row.actualResult == req.actualResult
  {
    match v
    case ApiIndex =>
      Record(id, uid,
        if Truthy(req.matchName) then req.matchName.value else "未命名赛事",
        if Truthy(req.handicapType) then req.handicapType.value else "asian",
        req.initialHandicap, req.currentHandicap, req.initialWater, req.currentWater,
        Some(req.handicapChange.GetOr(0.0)), Some(req.waterChange.GetOr(0.0)),
        req.historicalRecord,
        if Truthy(req.recommendation) then req.recommendation else Some("等待输入"),
        if Truthy(req.actualResult) then req.actualResult else Some(""),
        now, now)
    case ServerJs =>
      Record(id, uid, req.matchName.value, req.handicapType.value,
        req.initialHandicap, req.currentHandicap, req.initialWater, req.currentWater,
        req.handicapChange, req.waterChange, req.historicalRecord, req.recommendation, req.actualResult,
        now, now)
  }

  predicate KnownUser(s: State, req: RecordRequest) {
    req.userId.Some? && HasUser(s, req.userId.value)
  }

  /** The trial window of a gated user has closed (strictly after its end). */
  predicate Expired(v: Variant, s: State, req: RecordRequest, now: int)
    requires KnownUser(s, req)
  {
    var u := UserOf(s, req.userId.value);
    TrialGated(v, u, req) && now > TrialEndInstant(u)
  }

  /** A gated user has used up the trial quota. */
  predicate Exhausted(v: Variant, s: State, req: RecordRequest)
    requires KnownUser(s, req)
  {
    var u := UserOf(s, req.userId.value);
    TrialGated(v, u, req) && u.trialCount >= TrialQuota
  }

  /** The user id is absent (it then matches no row) or within the INTEGER range. */
  predicate QueryableId(userId: Option<int>) {
    userId.None? || IsInteger(userId.value)
  }

  /**
   * POST /records. Fails, changing nothing, for a user id outside the
   * INTEGER range, for an unknown user, for a gated user whose trial has
   * expired or whose quota is used up, and (server.js) for a missing NOT
   * NULL column. Otherwise appends exactly one row with a fresh id and, for
   * a gated user, adds exactly 1 to the user's trial count.
   */
  function SaveRecord(v: Variant, s: State, req: RecordRequest, now: int): (r: Reply<Saved>)
    ensures r.result.Err? ==> r.state == s
    ensures r.result == Err(UserNotFound) <==> QueryableId(req.userId) && !KnownUser(s, req)
    ensures r.result == Err(InternalError) <==>
              || !QueryableId(req.userId)
              || (KnownUser(s, req) && !Expired(v, s, req, now) && !Exhausted(v, s, req) && !RowInsertable(v, req))
    ensures QueryableId(req.userId) && KnownUser(s, req) ==>
              && (r.result == Err(TrialExpired) <==> Expired(v, s, req, now))
              && (r.result == Err(TrialQuotaExhausted) <==> !Expired(v, s, req, now) && Exhausted(v, s, req))
              && (r.result.Ok? <==> !Expired(v, s, req, now) && !Exhausted(v, s, req) && RowInsertable(v, req))
    ensures r.result.Ok? ==>
              var uid := req.userId.value;
              var u := UserOf(s, uid);
              && r.result.value == Saved(s.nextRecordId, now)
              && r.state.records == s.records + [StoredRow(v, req, uid, s.nextRecordId, now)]
              && r.state.nextRecordId == s.nextRecordId + 1
              && |r.state.users| == |s.users|
              && r.state.users[uid - 1] == u.(trialCount := u.trialCount + if TrialGated(v, u, req) then 1 else 0)
              && (forall j :: 0 <= j < |s.users| && j != uid - 1 ==> r.state.users[j] == s.users[j])
    ensures r.state.codes == s.codes
  {
    if !QueryableId(req.userId) then Reply(Err(InternalError), s)
    else if !KnownUser(s, req) then Reply(Err(UserNotFound), s)
    else if Expired(v, s, req, now) then Reply(Err(TrialExpired), s)
    else if Exhausted(v, s, req) then Reply(Err(TrialQuotaExhausted), s)
    else if !RowInsertable(v, req) then Reply(Err(InternalError), s)
    else
      var uid := req.userId.value;
      var u := UserOf(s, uid);
      var row := StoredRow(v, req, uid, s.nextRecordId, now);
      var users := if TrialGated(v, u, req) then s.users[uid - 1 := u.(trialCount := u.trialCount + 1)] else s.users;
      Reply(Ok(Saved(row.id, now)), s.(records := s.records + [row], users := users, nextRecordId := s.nextRecordId + 1))
  }

  /**
   * PUT /records/:id: sets the result and the update time of the row with
   * this id and nothing else. Reports success even when no row matches; an
   * id outside the INTEGER range makes the UPDATE fail.
   */
  function UpdateRecord(s: State, id: int, actualResult: Option<string>, now: int): (r: Reply<()>)
    ensures r.result.Ok? <==> IsInteger(id)
    ensures r.result.Err? ==> r.result.error == InternalError && r.state == s
    ensures |r.state.records| == |s.records|
    ensures forall i :: 0 <= i < |s.records| && s.records[i].id != id ==> r.state.records[i] == s.records[i]
    ensures r.result.Ok? ==>
              forall i :: 0 <= i < |s.records| && s.records[i].id == id ==>
                r.state.records[i] == s.records[i].(actualResult := actualResult, updatedAt := now)
    ensures r.state.users == s.users && r.state.codes == s.codes && r.state.nextRecordId == s.nextRecordId
  {
    if !IsInteger(id) then Reply(Err(InternalError), s)
    else
      var records := seq(|s.records|, i requires 0 <= i < |s.records| =>
        if s.records[i].id == id then s.records[i].(actualResult := actualResult, updatedAt := now) else s.records[i]);
      Reply(Ok(()), s.(records := records))
  }

  /** Keeps the records whose id is not `id`. */
  function OtherId(id: int): Record -> bool {
    (rec: Record) => rec.id != id
  }

  /** The records left after deleting every row with this id, in their original order. */
  function WithoutId(records: seq<Record>, id: int): (r: seq<Record>)
    ensures forall rec :: rec in r <==> rec in records && rec.id != id
    ensures forall rec :: multiset(r)[rec] == if rec.id != id then multiset(records)[rec] else 0
    ensures |r| <= |records|
  {
    Filter(records, OtherId(id))
  }

  /** Deleting rows keeps the survivors' ids distinct. */
  lemma {:induction false} WithoutIdDistinct(records: seq<Record>, id: int)
    ensures DistinctIds(records) ==> DistinctIds(WithoutId(records, id))
  {
    if |records| > 0 && DistinctIds(records) {
      var tail := records[1..];
      var rest := WithoutId(tail, id);
      assert DistinctIds(tail) by {
        forall i, j | 0 <= i < j < |tail| ensures tail[i].id != tail[j].id {
          assert tail[i] == records[i + 1] && tail[j] == records[j + 1];
        }
      }
      WithoutIdDistinct(tail, id);
      if records[0].id != id {
        forall rec | rec in rest ensures records[0].id != rec.id {
          var m :| 0 <= m < |tail| && tail[m] == rec;
          assert records[m + 1] == rec;
        }
        ConsDistinct(records[0], rest);
        assert WithoutId(records, id) == [records[0]] + rest;
      }
    }
  }

  /** A row whose id no row of a list shares can go in front of it. */
  lemma ConsDistinct(first: Record, rest: seq<Record>)
    requires DistinctIds(rest)
    requires forall rec :: rec in rest ==> first.id != rec.id
    ensures DistinctIds([first] + rest)
  {
    var r := [first] + rest;
    forall i, j | 0 <= i < j < |r| ensures r[i].id != r[j].id {
      assert r[j] == rest[j - 1];
      if i > 0 {
        assert r[i] == rest[i - 1];
      }
    }
  }

  /**
   * DELETE /records/:id: removes the row with this id and nothing else,
   * keeping the survivors in their order. Reports success even when no row
   * matches; an id outside the INTEGER range makes the DELETE fail.
   */
  function DeleteRecord(s: State, id: int): (r: Reply<()>)
    ensures r.result.Ok? <==> IsInteger(id)
    ensures r.result.Err? ==> r.result.error == InternalError && r.state == s
    ensures r.result.Ok? ==> forall rec :: rec in r.state.records <==> rec in s.records && rec.id != id
    ensures r.result.Ok? ==>
              forall rec :: multiset(r.state.records)[rec] == if rec.id != id then multiset(s.records)[rec] else 0
    ensures DistinctIds(s.records) ==> DistinctIds(r.state.records)
    ensures r.state.users == s.users && r.state.codes == s.codes && r.state.nextRecordId == s.nextRecordId
  {
    if !IsInteger(id) then Reply(Err(InternalError), s)
    else
      WithoutIdDistinct(s.records, id);
      Reply(Ok(()), s.(records := WithoutId(s.records, id)))
  }

  // ---------------------------------------------------------------- invitation codes

  function CodeCreatedAt(c: Code): int {
    c.createdAt
  }

  /** The WHERE clause `is_used = false`. */
  predicate Unused(c: Code) {
    !c.isUsed
  }

  /** GET /invitation-codes: the unused codes, `ORDER BY created_at DESC`. */
  function AvailableCodes(s: State): (r: seq<Code>)
    ensures multiset(r) == multiset(Filter(s.codes, Unused))
    ensures forall c :: c in r <==> c in s.codes && !c.isUsed
    ensures NewestFirstOrder(r, CodeCreatedAt)
  {
    var unused := Filter(s.codes, Unused);
    var r := SortNewestFirst(unused, CodeCreatedAt);
    assert forall c :: c in r <==> c in unused by {
      forall c ensures c in r <==> c in unused {
        assert c in r <==> c in multiset(r);
        assert c in unused <==> c in multiset(unused);
      }
    }
    r
  }

  function TrimAll(codes: seq<string>): (r: seq<string>)
    ensures |r| == |codes|
    ensures forall i :: 0 <= i < |codes| ==> r[i] == Text.Trim(codes[i])
    ensures forall i :: 0 <= i < |codes| && |r[i]| > 0 ==> !Text.IsJsSpace(r[i][0]) && !Text.IsJsSpace(r[i][|r[i]| - 1])
    ensures forall i :: 0 <= i < |codes| ==>
              var a := Text.LeadingSpaces(codes[i]);
              && a + |r[i]| <= |codes[i]|
              && codes[i][a..a + |r[i]|] == r[i]
              && forall k :: 0 <= k < |codes[i]| && (k < a || k >= a + |r[i]|) ==> Text.IsJsSpace(codes[i][k])
  {
    seq(|codes|, i requires 0 <= i < |codes| => Text.Trim(codes[i]))
  }

  /** The names an import inserts: trimmed in api/index.js, as sent in server.js. */
  function ImportNames(v: Variant, codes: seq<string>): seq<string> {
    if v.ApiIndex? then TrimAll(codes) else codes
  }

  /** `createdBy` defaults to 'admin' in api/index.js when absent; server.js stores it as sent. */
  function ImportOwner(v: Variant, createdBy: Option<string>): Option<string> {
    if v.ApiIndex? then Some(createdBy.GetOr("admin")) else createdBy
  }

  /**
   * POST /invitation-codes. api/index.js rejects a missing or empty list;
   * server.js fails with a 500 on a missing one. Otherwise each name is
   * inserted if absent; the reply lists, in input order, the names not
   * already present (in the table or earlier in the batch), and the table
   * gains exactly those as unused codes. Existing codes are untouched.
   */
  function ImportCodes(v: Variant, s: State, codes: Option<seq<string>>, createdBy: Option<string>, now: int): (r: Reply<seq<string>>)
    ensures r.result.Err? ==> r.state == s
    ensures r.result == Err(InvalidCodeList) <==> v.ApiIndex? && (codes.None? || |codes.value| == 0)
    ensures r.result == Err(InternalError) <==> v.ServerJs? && codes.None?
    ensures r.result.Err? ==> r.result.error == InvalidCodeList || r.result.error == InternalError
    ensures r.result.Ok? ==> codes.Some?
    ensures r.result.Ok? ==>
              var inserted := r.result.value;
              && inserted == FirstFresh(CodeSet(s.codes), ImportNames(v, codes.value))
              && (forall x :: x in inserted <==> x in ImportNames(v, codes.value) && x !in CodeSet(s.codes))
              && NoDuplicates(inserted)
              && |r.state.codes| == |s.codes| + |inserted|
              && r.state.codes[..|s.codes|] == s.codes
              && (forall i :: 0 <= i < |inserted| ==>
                    r.state.codes[|s.codes| + i] == FreshCode(inserted[i], ImportOwner(v, createdBy), now))
    ensures r.state.users == s.users && r.state.records == s.records && r.state.nextRecordId == s.nextRecordId
  {
    if codes.None? then
      if v.ApiIndex? then Reply(Err(InvalidCodeList), s) else Reply(Err(InternalError), s)
    else if v.ApiIndex? && |codes.value| == 0 then Reply(Err(InvalidCodeList), s)
    else
      var names := ImportNames(v, codes.value);
      var owner := ImportOwner(v, createdBy);
      InsertAbsentIsFirstFresh(s.codes, names, owner, now);
      var (table, inserted) := InsertAbsent(s.codes, names, owner, now);
      Reply(Ok(inserted), s.(codes := table))
  }
}

=== FILE: recommend.dfy ===
/**
 * The two rule-chain recommenders: one for the Asian handicap market and one
 * for the totals ("size") market. Each computes the handicap change and the
 * water change (current minus initial) and returns the label of the first
 * rule that matches. The api/index.js variant falls back on the historical
 * record before answering "watch"; the server.js variant does not.
 */
module Recommend {

  /** The labels the recommenders return. */
  datatype Pick = Upper | Lower | Over | Under | Watch

  /** The label string the HTTP response carries. */
  function Label(p: Pick): string {
    match p
    case Upper => "上盘"
    case Lower => "下盘"
    case Over => "大球"
    case Under => "小球"
    case Watch => "观望"
  }

  /** The body of a recommendation request. */
  datatype Snapshot = Snapshot(
    initialHandicap: real,
    currentHandicap: real,
    initialWater: real,
    currentWater: real,
    historicalRecord: string)

  function HandicapDelta(d: Snapshot): real {
    d.currentHandicap - d.initialHandicap
  }

  function WaterDelta(d: Snapshot): real {
    d.currentWater - d.initialWater
  }

  // ---------------------------------------------------------------- api/index.js

  /** Line up, price shortens: back the favourite; line down, price drifts: back the underdog; else follow history. */
  function AsianWithHistory(d: Snapshot): (p: Pick)
    ensures p == Upper || p == Lower || p == Watch
    ensures HandicapDelta(d) > 0.0 && WaterDelta(d) < 0.0 ==> p == Upper
    ensures HandicapDelta(d) < 0.0 && WaterDelta(d) > 0.0 ==> p == Lower
    ensures !(HandicapDelta(d) > 0.0 && WaterDelta(d) < 0.0) && !(HandicapDelta(d) < 0.0 && WaterDelta(d) > 0.0) ==>
              (p == Upper <==> d.historicalRecord == "win") && (p == Lower <==> d.historicalRecord == "loss")
  {
    var dh := HandicapDelta(d);
    var dw := WaterDelta(d);
    if dh > 0.0 && dw < 0.0 then Upper
    else if dh < 0.0 && dw > 0.0 then Lower
    else if d.historicalRecord == "win" then Upper
    else if d.historicalRecord == "loss" then Lower
    else Watch
  }

  /** Line and price move together upwards: over; together downwards: under; else follow history. */
  function SizeWithHistory(d: Snapshot): (p: Pick)
    ensures p == Over || p == Under || p == Watch
    ensures HandicapDelta(d) > 0.0 && WaterDelta(d) > 0.0 ==> p == Over
    ensures HandicapDelta(d) < 0.0 && WaterDelta(d) < 0.0 ==> p == Under
    ensures !(HandicapDelta(d) > 0.0 && WaterDelta(d) > 0.0) && !(HandicapDelta(d) < 0.0 && WaterDelta(d) < 0.0) ==>
              (p == Over <==> d.historicalRecord == "win") && (p == Under <==> d.historicalRecord == "loss")
  {
    var dh := HandicapDelta(d);
    var dw := WaterDelta(d);
    if dh > 0.0 && dw > 0.0 then Over
    else if dh < 0.0 && dw < 0.0 then Under
    else if d.historicalRecord == "win" then Over
    else if d.historicalRecord == "loss" then Under
    else Watch
  }

  // ---------------------------------------------------------------- server.js

  /** The Asian rules without the history fallback: the historical record is ignored. */
  function AsianByDeltas(d: Snapshot): (p: Pick)
    ensures p == Upper <==> HandicapDelta(d) > 0.0 && WaterDelta(d) < 0.0
    ensures p == Lower <==> HandicapDelta(d) < 0.0 && WaterDelta(d) > 0.0
    ensures p == Upper || p == Lower || p == Watch
  {
    var dh := HandicapDelta(d);
    var dw := WaterDelta(d);
    if dh > 0.0 && dw < 0.0 then Upper
    else if dh < 0.0 && dw > 0.0 then Lower
    else Watch
  }

  /** The totals rules without the history fallback: the historical record is ignored. */
  function SizeByDeltas(d: Snapshot): (p: Pick)
    ensures p == Over <==> HandicapDelta(d) > 0.0 && WaterDelta(d) > 0.0
    ensures p == Under <==> HandicapDelta(d) < 0.0 && WaterDelta(d) < 0.0
    ensures p == Over || p == Under || p == Watch
  {
    var dh := HandicapDelta(d);
    var dw := WaterDelta(d);
    if dh > 0.0 && dw > 0.0 then Over
    else if dh < 0.0 && dw < 0.0 then Under
    else Watch
  }

  // ---------------------------------------------------------------- relations

  /** The history rules only break ties the delta rules leave open, and are silent for other histories. */
  lemma HistoryOnlyBreaksTies(d: Snapshot)
    ensures AsianByDeltas(d) != Watch ==> AsianWithHistory(d) == AsianByDeltas(d)
    ensures SizeByDeltas(d) != Watch ==> SizeWithHistory(d) == SizeByDeltas(d)
    ensures d.historicalRecord != "win" && d.historicalRecord != "loss" ==>
              AsianWithHistory(d) == AsianByDeltas(d) && SizeWithHistory(d) == SizeByDeltas(d)
  {
  }

  /** The snapshot with both moves reversed and the historical outcome swapped. */
  function Reversed(d: Snapshot): Snapshot {
    Snapshot(d.currentHandicap, d.initialHandicap, d.currentWater, d.initialWater,
      if d.historicalRecord == "win" then "loss" else if d.historicalRecord == "loss" then "win" else d.historicalRecord)
  }

  function Opposite(p: Pick): Pick {
    match p
    case Upper => Lower
    case Lower => Upper
    case Over => Under
    case Under => Over
    case Watch => Watch
  }

  /** Each recommender is symmetric: reversing every move reverses the advice. */
  lemma ReversalReversesAdvice(d: Snapshot)
    ensures AsianWithHistory(Reversed(d)) == Opposite(AsianWithHistory(d))
    ensures SizeWithHistory(Reversed(d)) == Opposite(SizeWithHistory(d))
    ensures AsianByDeltas(Reversed(d)) == Opposite(AsianByDeltas(d))
    ensures SizeByDeltas(Reversed(d)) == Opposite(SizeByDeltas(d))
  {
  }

  /** The totals market reads a water move the opposite way from the Asian market. */
  function WaterReversed(d: Snapshot): Snapshot {
    d.(initialWater := d.currentWater, currentWater := d.initialWater)
  }

  function AsTotals(p: Pick): Pick {
    match p
    case Upper => Over
    case Lower => Under
    case _ => p
  }

  /** The size rules are the Asian rules with the water move reversed. */
  lemma SizeMirrorsAsian(d: Snapshot)
    ensures SizeWithHistory(d) == AsTotals(AsianWithHistory(WaterReversed(d)))
    ensures SizeByDeltas(d) == AsTotals(AsianByDeltas(WaterReversed(d)))
  {
  }
}

=== FILE: store.dfy ===
/**
 * The three tables of the application (users, invitation_codes,
 * handicap_records) as immutable values, with the lookups and single-table
 * updates the request handlers are built from.
 *
 * Users are never deleted, so the users table is a sequence, and the model
 * numbers its i-th entry i + 1; gaps a failed INSERT leaves in the SERIAL
 * sequence are not modelled. Invitation codes are never deleted either; their
 * sequence is in insertion order. Records carry their own id, because rows can
 * be deleted; `nextRecordId` is the next value of their SERIAL sequence.
 */
module Store {
  import opened Wrappers

  /** The number of records a trial user may save. */
  const TrialQuota: nat := 18
  /** The clock counts milliseconds, as a JavaScript Date does. */
  const MsPerDay: nat := 86_400_000
  /** Length of the trial window opened at registration: seven days. */
  const TrialLength: nat := 7 * MsPerDay

  /** The range of PostgreSQL's INTEGER, the type of every id column; a parameter outside it makes the query fail. */
  const IntegerMin: int := -0x8000_0000
  const IntegerMax: int := 0x7FFF_FFFF

  predicate IsInteger(x: int) {
    IntegerMin <= x <= IntegerMax
  }

  datatype UserType = Trial | Registered | Admin

  datatype User = User(
    username: string,
    password: string,        // stored and compared verbatim
    userType: UserType,
    trialCount: nat,
    trialStart: Option<int>,
    trialEnd: Option<int>,
    lastLogin: Option<int>)

  /** The instant `new Date(trial_end_date)` denotes; a null end date reads as the epoch. */
  function TrialEndInstant(u: User): int {
    u.trialEnd.GetOr(0)
  }

  datatype Code = Code(
    code: string,
    createdBy: Option<string>,
    isUsed: bool,
    usedBy: Option<string>,
    usedDate: Option<int>,
    createdAt: int)

  datatype Record = Record(
    id: nat,
    userId: nat,
    matchName: string,       // NOT NULL column
    handicapType: string,    // NOT NULL column
    initialHandicap: Option<real>,
    currentHandicap: Option<real>,
    initialWater: Option<real>,
    currentWater: Option<real>,
    handicapChange: Option<real>,
    waterChange: Option<real>,
    historicalRecord: Option<string>,
    recommendation: Option<string>,
    actualResult: Option<string>,
    createdAt: int,
    updatedAt: int)

  datatype State = State(users: seq<User>, codes: seq<Code>, records: seq<Record>, nextRecordId: nat)

  // ---------------------------------------------------------------- users

  predicate HasUser(s: State, id: int) {
    1 <= id <= |s.users|
  }

  function UserOf(s: State, id: int): User
    requires HasUser(s, id)
  {
    s.users[id - 1]
  }

  /** `SELECT id FROM users WHERE username = $1` finds a row. */
  predicate UsernameTaken(users: seq<User>, name: string) {
    exists i :: 0 <= i < |users| && users[i].username == name
  }

  predicate Credentials(u: User, name: string, password: string) {
    u.username == name && u.password == password
  }

  /** The index of the first user whose username and password both match exactly. */
  function FindLogin(users: seq<User>, name: string, password: string): (r: Option<nat>)
    ensures r.Some? ==> r.value < |users| && Credentials(users[r.value], name, password)
    ensures r.Some? ==> forall j :: 0 <= j < r.value ==> !Credentials(users[j], name, password)
    ensures r.None? <==> forall j :: 0 <= j < |users| ==> !Credentials(users[j], name, password)
  {
    if |users| == 0 then None
    else if Credentials(users[0], name, password) then Some(0)
    else
      match FindLogin(users[1..], name, password)
      case None => None
      case Some(k) => Some(k + 1)
  }

  // ---------------------------------------------------------------- codes

  function CodeSet(codes: seq<Code>): (r: set<string>)
    ensures forall i :: 0 <= i < |codes| ==> codes[i].code in r
    ensures forall x :: x in r ==> exists i :: 0 <= i < |codes| && codes[i].code == x
  {
    set c | c in codes :: c.code
  }

  /** `SELECT * FROM invitation_codes WHERE code = $1 AND is_used = false` finds a row. */
  predicate CodeAvailable(codes: seq<Code>, code: string) {
    exists i :: 0 <= i < |codes| && codes[i].code == code && !codes[i].isUsed
  }

  /**
   * `after` is `before` with every row of `code` marked used by `usedBy` at `now`
   * and every other row, and every other column, left as it was.
   */
  predicate RedeemedBy(before: seq<Code>, after: seq<Code>, code: string, usedBy: Option<string>, now: int) {
    && |after| == |before|
    && (forall i :: 0 <= i < |before| && before[i].code != code ==> after[i] == before[i])
    && (forall i :: 0 <= i < |before| && before[i].code == code ==>
          after[i] == before[i].(isUsed := true, usedBy := usedBy, usedDate := Some(now)))
  }

  /** `UPDATE invitation_codes SET is_used = true, used_by = $1, used_date = now WHERE code = $2`. */
  function ConsumeCode(codes: seq<Code>, code: string, usedBy: Option<string>, now: int): (r: seq<Code>)
    ensures RedeemedBy(codes, r, code, usedBy, now)
    ensures !CodeAvailable(r, code)
    ensures CodeSet(r) == CodeSet(codes)
  {
    var r := seq(|codes|, i requires 0 <= i < |codes| =>
      if codes[i].code == code then codes[i].(isUsed := true, usedBy := usedBy, usedDate := Some(now)) else codes[i]);
    assert forall i :: 0 <= i < |r| ==> r[i].code == codes[i].code;
    SameNamesSameCodeSet(codes, r);
    r
  }

  /** Two tables whose rows carry the same names, row by row, hold the same set of names. */
  lemma SameNamesSameCodeSet(a: seq<Code>, b: seq<Code>)
    requires |a| == |b|
    requires forall i :: 0 <= i < |a| ==> a[i].code == b[i].code
    ensures CodeSet(a) == CodeSet(b)
  {
    forall x | x in CodeSet(a) ensures x in CodeSet(b) {
      var i :| 0 <= i < |a| && a[i].code == x;
      assert b[i].code == x;
    }
    forall x | x in CodeSet(b) ensures x in CodeSet(a) {
      var i :| 0 <= i < |b| && b[i].code == x;
      assert a[i].code == x;
    }
  }

  /** Appending a row adds exactly its name to the set of names. */
  lemma CodeSetAppend(codes: seq<Code>, c: Code)
    ensures CodeSet(codes + [c]) == CodeSet(codes) + {c.code}
  {
    var codes' := codes + [c];
    assert codes'[|codes|] == c;
    forall y | y in CodeSet(codes') ensures y in CodeSet(codes) + {c.code} {
      var i :| 0 <= i < |codes'| && codes'[i].code == y;
      if i < |codes| { assert codes[i] == codes'[i]; }
    }
    forall y | y in CodeSet(codes) ensures y in CodeSet(codes') {
      var i :| 0 <= i < |codes| && codes[i].code == y;
      assert codes'[i].code == y;
    }
  }

  function FreshCode(code: string, owner: Option<string>, now: int): Code {
    Code(code, owner, false, None, None, now)
  }

  predicate NoDuplicates<T(==)>(xs: seq<T>) {
    forall i, j :: 0 <= i < j < |xs| ==> xs[i] != xs[j]
  }

  /**
   * Inserts each name of `batch` in turn with `ON CONFLICT (code) DO NOTHING`.
   * Returns the new table and the names actually inserted, in insertion order.
   */
  function InsertAbsent(codes: seq<Code>, batch: seq<string>, owner: Option<string>, now: int): (r: (seq<Code>, seq<string>))
    ensures |r.0| == |codes| + |r.1|
    ensures r.0[..|codes|] == codes
    ensures forall i :: 0 <= i < |r.1| ==> r.0[|codes| + i] == FreshCode(r.1[i], owner, now)
    ensures forall x :: x in r.1 <==> x in batch && x !in CodeSet(codes)
    ensures NoDuplicates(r.1)
    decreases |batch|
  {
    if |batch| == 0 then (codes, [])
    else
      var x := batch[0];
      if x in CodeSet(codes) then
        InsertAbsent(codes, batch[1..], owner, now)
      else
        var codes' := codes + [FreshCode(x, owner, now)];
        CodeSetAppend(codes, FreshCode(x, owner, now));
        var rest := InsertAbsent(codes', batch[1..], owner, now);
        assert rest.0[..|codes|] == codes by {
          assert rest.0[..|codes'|] == codes';
          assert rest.0[..|codes|] == rest.0[..|codes'|][..|codes|];
        }
        assert x !in rest.1;
        assert forall y :: y in batch <==> y == x || y in batch[1..] by {
          assert batch == [x] + batch[1..];
        }
        (rest.0, [x] + rest.1)
  }

  /**
   * Reference definition of the names a batch adds to a table holding
   * `existing`: every name of the batch that is neither in `existing` nor
   * earlier in the batch, in batch order.
   */
  function FirstFresh(existing: set<string>, batch: seq<string>): seq<string>
    decreases |batch|
  {
    if |batch| == 0 then []
    else
      var init := batch[..|batch| - 1];
      var x := batch[|batch| - 1];
      FirstFresh(existing, init) + (if x in existing || x in init then [] else [x])
  }

  /** Peeling the first name off a batch, as the insertion loop does. */
  lemma {:induction false} FirstFreshCons(existing: set<string>, x: string, rest: seq<string>)
    ensures FirstFresh(existing, [x] + rest)
         == (if x in existing then [] else [x]) + FirstFresh(existing + {x}, rest)
    decreases |rest|
  {
    var b := [x] + rest;
    if |rest| == 0 {
      assert b[..|b| - 1] == [];
    } else {
      var init := rest[..|rest| - 1];
      var y := rest[|rest| - 1];
      assert b[..|b| - 1] == [x] + init;
      assert b[|b| - 1] == y;
      FirstFreshCons(existing, x, init);
      assert (y in existing || y in [x] + init) == (y in existing + {x} || y in init);
    }
  }

  /** The names `InsertAbsent` reports are exactly the reference ones. */
  lemma {:induction false} InsertAbsentIsFirstFresh(codes: seq<Code>, batch: seq<string>, owner: Option<string>, now: int)
    ensures InsertAbsent(codes, batch, owner, now).1 == FirstFresh(CodeSet(codes), batch)
    decreases |batch|
  {
    if |batch| > 0 {
      var x := batch[0];
      assert batch == [x] + batch[1..];
      FirstFreshCons(CodeSet(codes), x, batch[1..]);
      if x in CodeSet(codes) {
        assert CodeSet(codes) + {x} == CodeSet(codes);
        InsertAbsentIsFirstFresh(codes, batch[1..], owner, now);
      } else {
        var codes' := codes + [FreshCode(x, owner, now)];
        CodeSetAppend(codes, FreshCode(x, owner, now));
        InsertAbsentIsFirstFresh(codes', batch[1..], owner, now);
      }
    }
  }

  // ---------------------------------------------------------------- records

  /** The number of records owned by user `uid`. */
  function Owned(records: seq<Record>, uid: int): (n: nat)
    ensures n <= |records|
  {
    if |records| == 0 then 0
    else (if records[0].userId == uid then 1 else 0) + Owned(records[1..], uid)
  }

  /** No two records share an id (the SERIAL primary key). */
  predicate DistinctIds(records: seq<Record>) {
    forall i, j :: 0 <= i < j < |records| ==> records[i].id != records[j].id
  }

  // ---------------------------------------------------------------- ordering

  /** The rows of `xs` that satisfy `keep`, in their original order: the WHERE clause of a SELECT. */
  function Filter<T(!new)>(xs: seq<T>, keep: T -> bool): (r: seq<T>)
    ensures forall x :: x in r <==> x in xs && keep(x)
    ensures forall x :: multiset(r)[x] == if keep(x) then multiset(xs)[x] else 0
    ensures |r| <= |xs|
  {
    if |xs| == 0 then []
    else
      assert forall x :: x in xs <==> x == xs[0] || x in xs[1..] by {
        assert xs == [xs[0]] + xs[1..];
      }
      (if keep(xs[0]) then [xs[0]] else []) + Filter(xs[1..], keep)
  }

  /** Timestamps never increase along `xs`: the order of `ORDER BY created_at DESC`. */
  predicate NewestFirstOrder<T>(xs: seq<T>, stamp: T -> int) {
    forall i, j :: 0 <= i < j < |xs| ==> stamp(xs[i]) >= stamp(xs[j])
  }

  /** Puts `x` into a newest-first sequence, after every element at least as new. */
  function InsertByStamp<T>(x: T, xs: seq<T>, stamp: T -> int): (r: seq<T>)
    requires NewestFirstOrder(xs, stamp)
    ensures NewestFirstOrder(r, stamp)
    ensures multiset(r) == multiset(xs) + multiset{x}
    decreases |xs|
  {
    if |xs| == 0 || stamp(x) > stamp(xs[0]) then [x] + xs
    else
      var rest := InsertByStamp(x, xs[1..], stamp);
      assert xs == [xs[0]] + xs[1..];
      NoNewerThanHead(xs, x, rest, stamp);
      [xs[0]] + rest
  }

  /** The step `InsertByStamp` needs: the head of a newest-first sequence is at least as new as the rest. */
  lemma NoNewerThanHead<T>(xs: seq<T>, x: T, rest: seq<T>, stamp: T -> int)
    requires |xs| > 0 && NewestFirstOrder(xs, stamp) && stamp(x) <= stamp(xs[0])
    requires NewestFirstOrder(rest, stamp)
    requires multiset(rest) == multiset(xs[1..]) + multiset{x}
    ensures NewestFirstOrder([xs[0]] + rest, stamp)
  {
    var r := [xs[0]] + rest;
    forall i, j | 0 <= i < j < |r| ensures stamp(r[i]) >= stamp(r[j]) {
      assert r[j] == rest[j - 1];
      if i == 0 {
        assert rest[j - 1] in multiset(rest);
        if rest[j - 1] != x {
          assert rest[j - 1] in multiset(xs[1..]);
          var m :| 0 <= m < |xs[1..]| && xs[1..][m] == rest[j - 1];
          assert xs[m + 1] == rest[j - 1];
        }
      } else {
        assert r[i] == rest[i - 1];
      }
    }
  }

  /** `ORDER BY stamp DESC`: a newest-first permutation of `xs`; among equal stamps, later rows come first. */
  function SortNewestFirst<T>(xs: seq<T>, stamp: T -> int): (r: seq<T>)
    ensures NewestFirstOrder(r, stamp)
    ensures multiset(r) == multiset(xs)
    decreases |xs|
  {
    if |xs| == 0 then []
    else
      assert xs == [xs[0]] + xs[1..];
      InsertByStamp(xs[0], SortNewestFirst(xs[1..], stamp), stamp)
  }
}

=== FILE: text.dfy ===
/**
 * Whitespace trimming as done by JavaScript's `String.prototype.trim`, which
 * removes the characters ECMAScript calls WhiteSpace and LineTerminator from
 * both ends of a string.
 */
module Text {

  /** WhiteSpace (TAB, VT, FF, SP, NBSP, ZWNBSP and the Zs category) and LineTerminator (LF, CR, LS, PS). */
  predicate IsJsSpace(c: char) {
    || c == '\t' || c == '\n' || c == '\U{B}' || c == '\U{C}' || c == '\r'
    || c == ' ' || c == '\U{A0}' || c == '\U{1680}'
    || ('\U{2000}' <= c <= '\U{200A}')
    || c == '\U{2028}' || c == '\U{2029}' || c == '\U{202F}' || c == '\U{205F}'
    || c == '\U{3000}' || c == '\U{FEFF}'
  }

  /** The number of whitespace characters at the start of `s`. */
  function LeadingSpaces(s: string): (k: nat)
    ensures k <= |s|
    ensures forall i :: 0 <= i < k ==> IsJsSpace(s[i])
    ensures k < |s| ==> !IsJsSpace(s[k])
  {
    if |s| > 0 && IsJsSpace(s[0]) then 1 + LeadingSpaces(s[1..]) else 0
  }

  /** The number of whitespace characters at the end of `s`. */
  function TrailingSpaces(s: string): (k: nat)
    ensures k <= |s|
    ensures forall i :: |s| - k <= i < |s| ==> IsJsSpace(s[i])
    ensures k < |s| ==> !IsJsSpace(s[|s| - k - 1])
  {
    if |s| > 0 && IsJsSpace(s[|s| - 1]) then 1 + TrailingSpaces(s[..|s| - 1]) else 0
  }

  /** `s` without its leading and trailing whitespace. */
  function Trim(s: string): (t: string)
    ensures LeadingSpaces(s) + |t| <= |s|
    ensures t == s[LeadingSpaces(s)..LeadingSpaces(s) + |t|]
    ensures |t| > 0 ==> !IsJsSpace(t[0]) && !IsJsSpace(t[|t| - 1])
    ensures forall i :: 0 <= i < |s| && (i < LeadingSpaces(s) || i >= LeadingSpaces(s) + |t|) ==> IsJsSpace(s[i])
  {
    var a := LeadingSpaces(s);
    var rest := s[a..];
    var b := TrailingSpaces(rest);
    assert b < |rest| ==> rest[|rest| - b - 1] == s[|s| - b - 1];
    s[a..|s| - b]
  }

  /** Trimming twice is trimming once. */
  lemma TrimIdempotent(s: string)
    ensures Trim(Trim(s)) == Trim(s)
  {
    var t := Trim(s);
    if |t| > 0 {
      assert LeadingSpaces(t) == 0;
      assert TrailingSpaces(t) == 0;
    } else {
      assert LeadingSpaces(t) == 0;
    }
  }

  /** A string with no whitespace at either end is its own trim. */
  lemma TrimOfTrimmed(s: string)
    requires |s| > 0 ==> !IsJsSpace(s[0]) && !IsJsSpace(s[|s| - 1])
    ensures Trim(s) == s
  {
    assert LeadingSpaces(s) == 0;
    if |s| > 0 {
      assert TrailingSpaces(s) == 0;
    }
  }
}

=== FILE: traces.dfy ===
/**
 * Sequences of requests. A trace is a list of requests, each with the clock
 * reading at which it is handled; `Run` applies them one after another.
 * Over any trace, api/index.js keeps `Valid` with atomic registration and
 * `QuotaSafe` as written, and in both variants, atomic or as written, an
 * invitation code, once redeemed, never admits another registration.
 * server.js lets a trial user store records without limit.
 */
module Traces {
  import opened Wrappers
  import opened Store
  import opened Handlers
  import opened Entitlement

  datatype Request =
    | RegisterReq(registration: Registration)
    | LoginReq(username: Option<string>, password: Option<string>)
    | HistoryReq(userId: Option<int>)
    | SaveReq(record: RecordRequest)
    | UpdateReq(id: int, actualResult: Option<string>)
    | DeleteReq(id: int)
    | ListCodesReq
    | ImportReq(codes: Option<seq<string>>, createdBy: Option<string>)

  datatype Timed = Timed(request: Request, now: int)

  /** The state after handling one request; queries leave it unchanged. */
  function Step(v: Variant, s: State, t: Timed): State {
    match t.request
    case RegisterReq(reg) => Register(s, reg, t.now).state
    case LoginReq(name, password) => Login(s, name, password, t.now).state
    case HistoryReq(_) => s
    case SaveReq(rec) => SaveRecord(v, s, rec, t.now).state
    case UpdateReq(id, actual) => UpdateRecord(s, id, actual, t.now).state
    case DeleteReq(id) => DeleteRecord(s, id).state
    case ListCodesReq => s
    case ImportReq(codes, owner) => ImportCodes(v, s, codes, owner, t.now).state
  }

  function Run(v: Variant, s: State, trace: seq<Timed>): State
    decreases |trace|
  {
    if |trace| == 0 then s else Run(v, Step(v, s, trace[0]), trace[1..])
  }

  // ---------------------------------------------------------------- api/index.js keeps the invariant

  lemma ApiStepPreservesValid(s: State, t: Timed)
    requires Valid(s)
    ensures Valid(Step(ApiIndex, s, t))
  {
    match t.request
    case RegisterReq(_) => ApiAccountStep(s, t);
    case LoginReq(_, _) => ApiAccountStep(s, t);
    case HistoryReq(_) =>
    case SaveReq(_) => ApiRecordStep(s, t);
    case UpdateReq(_, _) => ApiRecordStep(s, t);
    case DeleteReq(_) => ApiRecordStep(s, t);
    case ListCodesReq =>
    case ImportReq(codes, owner) =>
      assert Step(ApiIndex, s, t) == ImportCodes(ApiIndex, s, codes, owner, t.now).state;
      ImportPreservesValid(ApiIndex, s, codes, owner, t.now);
  }

  /** Registration and login keep the invariant. */
  lemma ApiAccountStep(s: State, t: Timed)
    requires Valid(s)
    requires t.request.RegisterReq? || t.request.LoginReq?
    ensures Valid(Step(ApiIndex, s, t))
  {
    match t.request
    case RegisterReq(reg) =>
      assert Step(ApiIndex, s, t) == Register(s, reg, t.now).state;
      RegisterPreservesValid(s, reg, t.now);
    case LoginReq(name, password) =>
      assert Step(ApiIndex, s, t) == Login(s, name, password, t.now).state;
      LoginPreservesValid(s, name, password, t.now);
  }

  /** Saving, updating and deleting records keep the invariant. */
  lemma ApiRecordStep(s: State, t: Timed)
    requires Valid(s)
    requires t.request.SaveReq? || t.request.UpdateReq? || t.request.DeleteReq?
    ensures Valid(Step(ApiIndex, s, t))
  {
    match t.request
    case SaveReq(rec) =>
      assert Step(ApiIndex, s, t) == SaveRecord(ApiIndex, s, rec, t.now).state;
      ApiSavePreservesValid(s, rec, t.now);
    case UpdateReq(id, actual) =>
      assert Step(ApiIndex, s, t) == UpdateRecord(s, id, actual, t.now).state;
      UpdatePreservesValid(s, id, actual, t.now);
    case DeleteReq(id) =>
      assert Step(ApiIndex, s, t) == DeleteRecord(s, id).state;
      DeletePreservesValid(s, id);
  }

  /** From a valid state, every trace of api/index.js requests ends in a valid state. */
  lemma {:induction false} ApiRunPreservesValid(s: State, trace: seq<Timed>)
    requires Valid(s)
    ensures Valid(Run(ApiIndex, s, trace))
    decreases |trace|
  {
    if |trace| > 0 {
      ApiStepPreservesValid(s, trace[0]);
      ApiRunPreservesValid(Step(ApiIndex, s, trace[0]), trace[1..]);
    }
  }

  // ---------------------------------------------------------------- registration as the statements run

  /** One request, with registration as its statements run rather than atomically; both files register alike. */
  function StepAsWritten(v: Variant, s: State, t: Timed): State {
    match t.request
    case RegisterReq(reg) => RegisterAsWritten(s, reg, t.now).state
    case _ => Step(v, s, t)
  }

  function RunAsWritten(v: Variant, s: State, trace: seq<Timed>): State
    decreases |trace|
  {
    if |trace| == 0 then s else RunAsWritten(v, StepAsWritten(v, s, trace[0]), trace[1..])
  }

  /**
   * Every request to api/index.js as written keeps the quota part of the
   * invariant, including a registration that fails after spending its code.
   */
  lemma AsWrittenStepKeepsQuota(s: State, t: Timed)
    requires QuotaSafe(s)
    ensures QuotaSafe(StepAsWritten(ApiIndex, s, t))
  {
    match t.request
    case RegisterReq(reg) => RegisterAsWrittenKeepsQuota(s, reg, t.now);
    case LoginReq(name, password) =>
      assert StepAsWritten(ApiIndex, s, t) == Login(s, name, password, t.now).state;
      LoginKeepsQuota(s, name, password, t.now);
    case HistoryReq(_) =>
    case SaveReq(_) => ApiRecordStepKeepsQuota(s, t);
    case UpdateReq(_, _) => ApiRecordStepKeepsQuota(s, t);
    case DeleteReq(_) => ApiRecordStepKeepsQuota(s, t);
    case ListCodesReq =>
    case ImportReq(codes, owner) =>
      assert StepAsWritten(ApiIndex, s, t) == ImportCodes(ApiIndex, s, codes, owner, t.now).state;
      ImportKeepsQuota(ApiIndex, s, codes, owner, t.now);
  }

  /** Saving, updating and deleting records keep the quota part of the invariant. */
  lemma ApiRecordStepKeepsQuota(s: State, t: Timed)
    requires QuotaSafe(s)
    requires t.request.SaveReq? || t.request.UpdateReq? || t.request.DeleteReq?
    ensures QuotaSafe(StepAsWritten(ApiIndex, s, t))
  {
    match t.request
    case SaveReq(rec) =>
      assert StepAsWritten(ApiIndex, s, t) == SaveRecord(ApiIndex, s, rec, t.now).state;
      ApiSaveKeepsQuota(s, rec, t.now);
    case UpdateReq(id, actual) =>
      assert StepAsWritten(ApiIndex, s, t) == UpdateRecord(s, id, actual, t.now).state;
      UpdateKeepsQuota(s, id, actual, t.now);
    case DeleteReq(id) =>
      assert StepAsWritten(ApiIndex, s, t) == DeleteRecord(s, id).state;
      DeleteKeepsQuota(s, id);
  }

  lemma {:induction false} AsWrittenRunKeepsQuota(s: State, trace: seq<Timed>)
    requires QuotaSafe(s)
    ensures QuotaSafe(RunAsWritten(ApiIndex, s, trace))
    decreases |trace|
  {
    if |trace| > 0 {
      AsWrittenStepKeepsQuota(s, trace[0]);
      AsWrittenRunKeepsQuota(StepAsWritten(ApiIndex, s, trace[0]), trace[1..]);
    }
  }

  /**
   * Hence, in api/index.js as written, a trial user never owns more records
   * than its trial count, nor counts past the quota, whatever was requested.
   */
  lemma ApiTrialQuotaHolds(s: State, trace: seq<Timed>, uid: nat)
    requires QuotaSafe(s)
    requires HasUser(RunAsWritten(ApiIndex, s, trace), uid)
    requires UserOf(RunAsWritten(ApiIndex, s, trace), uid).userType == Trial
    ensures var s' := RunAsWritten(ApiIndex, s, trace);
      Owned(s'.records, uid) <= UserOf(s', uid).trialCount <= TrialQuota
  {
    AsWrittenRunKeepsQuota(s, trace);
  }

  // ---------------------------------------------------------------- invitation codes, both variants

  /**
   * How the codes table may evolve: rows keep their names, a used row never
   * changes again, and appended rows carry names the table did not hold.
   */
  predicate CodeHistory(a: seq<Code>, b: seq<Code>) {
    && |a| <= |b|
    && (forall i :: 0 <= i < |a| ==> b[i].code == a[i].code)
    && (forall i :: 0 <= i < |a| && a[i].isUsed ==> b[i] == a[i])
    && (forall i :: |a| <= i < |b| ==> b[i].code !in CodeSet(a))
  }

  lemma CodeHistoryTransitive(a: seq<Code>, b: seq<Code>, c: seq<Code>)
    requires CodeHistory(a, b) && CodeHistory(b, c)
    ensures CodeHistory(a, c)
  {
    forall x | x in CodeSet(a) ensures x in CodeSet(b) {
      var k :| 0 <= k < |a| && a[k].code == x;
      assert b[k].code == x;
    }
  }

  /** Redeeming an available name of a table with unique names is a `CodeHistory` step. */
  lemma RedeemIsCodeHistory(a: seq<Code>, b: seq<Code>, c: string, usedBy: Option<string>, now: int)
    requires UniqueCodes(a) && CodeAvailable(a, c)
    requires RedeemedBy(a, b, c, usedBy, now)
    ensures CodeHistory(a, b) && UniqueCodes(b)
  {
    var j :| 0 <= j < |a| && a[j].code == c && !a[j].isUsed;
    forall i | 0 <= i < |a| && a[i].isUsed ensures b[i] == a[i] {
      assert i != j;
    }
    forall i, k | 0 <= i < k < |b| ensures b[i].code != b[k].code {
      assert b[i].code == a[i].code && b[k].code == a[k].code;
    }
  }

  /** Appending rows with new, distinct names is a `CodeHistory` step. */
  lemma AppendIsCodeHistory(a: seq<Code>, b: seq<Code>, added: seq<string>, owner: Option<string>, now: int)
    requires UniqueCodes(a)
    requires AppendsFresh(a, b, added, owner, now)
    ensures CodeHistory(a, b) && UniqueCodes(b)
  {
    AppendedNamesUnique(a, b, added, owner, now);
    forall i | |a| <= i < |b| ensures b[i].code !in CodeSet(a) {
      assert b[i].code == added[i - |a|];
      assert added[i - |a|] in added;
    }
  }

  /** A registration marks only an unused row used and keeps the names unique. */
  lemma RegisterCodeHistory(s: State, reg: Registration, now: int)
    requires UniqueCodes(s.codes)
    ensures CodeHistory(s.codes, Register(s, reg, now).state.codes)
    ensures UniqueCodes(Register(s, reg, now).state.codes)
  {
    var r := Register(s, reg, now);
    if r.result.Ok? && Truthy(reg.invitationCode) {
      RedeemIsCodeHistory(s.codes, r.state.codes, reg.invitationCode.value, reg.username, now);
    }
  }

  /** An import appends rows with new, distinct names and keeps the names unique. */
  lemma ImportCodeHistory(v: Variant, s: State, codes: Option<seq<string>>, owner: Option<string>, now: int)
    requires UniqueCodes(s.codes)
    ensures CodeHistory(s.codes, ImportCodes(v, s, codes, owner, now).state.codes)
    ensures UniqueCodes(ImportCodes(v, s, codes, owner, now).state.codes)
  {
    var r := ImportCodes(v, s, codes, owner, now);
    if r.result.Ok? {
      ImportedCodes(v, s, codes, owner, now);
      AppendIsCodeHistory(s.codes, r.state.codes, r.result.value, ImportOwner(v, owner), now);
    } else {
      assert r.state.codes == s.codes;
      assert CodeHistory(s.codes, s.codes);
    }
  }

  /** Every request, in either variant, keeps the names of the codes table unique and evolves it as `CodeHistory` says. */
  lemma StepCodeHistory(v: Variant, s: State, t: Timed)
    requires UniqueCodes(s.codes)
    ensures CodeHistory(s.codes, Step(v, s, t).codes)
    ensures UniqueCodes(Step(v, s, t).codes)
  {
    match t.request {
      case RegisterReq(reg) => RegisterCodeHistory(s, reg, t.now);
      case ImportReq(codes, owner) => ImportCodeHistory(v, s, codes, owner, t.now);
      case _ =>
    }
  }

  lemma {:induction false} RunCodeHistory(v: Variant, s: State, trace: seq<Timed>)
    requires UniqueCodes(s.codes)
    ensures CodeHistory(s.codes, Run(v, s, trace).codes)
    decreases |trace|
  {
    if |trace| > 0 {
      var s1 := Step(v, s, trace[0]);
      StepCodeHistory(v, s, trace[0]);
      RunCodeHistory(v, s1, trace[1..]);
      CodeHistoryTransitive(s.codes, s1.codes, Run(v, s, trace).codes);
    }
  }

  /** A name whose rows are all used stays unavailable as long as the table evolves as `CodeHistory` allows. */
  lemma SpentCodeStaysSpent(a: seq<Code>, b: seq<Code>, c: string)
    requires c in CodeSet(a) && !CodeAvailable(a, c)
    requires CodeHistory(a, b)
    ensures !CodeAvailable(b, c)
  {
    forall j | 0 <= j < |b| && b[j].code == c ensures b[j].isUsed {
      if j < |a| {
        assert a[j].code == c;
      }
    }
  }

  /** A successful registration with a code leaves that name in the table with no unused row. */
  lemma RegisteredCodeSpent(s: State, req: Registration, now: int)
    requires Register(s, req, now).result.Ok? && Truthy(req.invitationCode)
    ensures var s1 := Register(s, req, now).state;
      req.invitationCode.value in CodeSet(s1.codes) && !CodeAvailable(s1.codes, req.invitationCode.value)
  {
    var c := req.invitationCode.value;
    var s1 := Register(s, req, now).state;
    assert RedeemedBy(s.codes, s1.codes, c, req.username, now);
    var j :| 0 <= j < |s.codes| && s.codes[j].code == c && !s.codes[j].isUsed;
    assert s1.codes[j].code == c;
    assert !CodeAvailable(s1.codes, c) by {
      forall k | 0 <= k < |s1.codes| && s1.codes[k].code == c ensures s1.codes[k].isUsed {
        assert s.codes[k].code == c;
      }
    }
  }

  /**
   * An invitation code admits at most one registration: once a registration
   * has redeemed it, any later registration presenting it fails, after any
   * trace of requests of either variant.
   */
  lemma CodeAdmitsOneRegistration(v: Variant, s: State, req: Registration, now: int, trace: seq<Timed>, req2: Registration, now2: int)
    requires UniqueCodes(s.codes)
    requires Register(s, req, now).result.Ok? && Truthy(req.invitationCode)
    requires req2.invitationCode == req.invitationCode
    ensures Register(Run(v, Register(s, req, now).state, trace), req2, now2).result.Err?
  {
    var s1 := Register(s, req, now).state;
    RegisteredCodeSpent(s, req, now);
    RegisterCodeHistory(s, req, now);
    RunCodeHistory(v, s1, trace);
    SpentCodeStaysSpent(s1.codes, Run(v, s1, trace).codes, req.invitationCode.value);
  }

  /** A registration as written, failed or not, evolves the codes table as `CodeHistory` says. */
  lemma AsWrittenRegisterCodeHistory(s: State, reg: Registration, now: int)
    requires UniqueCodes(s.codes)
    ensures CodeHistory(s.codes, RegisterAsWritten(s, reg, now).state.codes)
    ensures UniqueCodes(RegisterAsWritten(s, reg, now).state.codes)
  {
    var r := RegisterAsWritten(s, reg, now);
    if r.result.Ok? {
      RegisterCodeHistory(s, reg, now);
    } else if r.result == Err(InternalError) && Truthy(reg.invitationCode) {
      RedeemIsCodeHistory(s.codes, r.state.codes, reg.invitationCode.value, reg.username, now);
    } else {
      assert CodeHistory(s.codes, s.codes);
    }
  }

  /** Every trace of either file, with registration as written, evolves the codes table as `CodeHistory` says. */
  lemma {:induction false} AsWrittenRunCodeHistory(v: Variant, s: State, trace: seq<Timed>)
    requires UniqueCodes(s.codes)
    ensures CodeHistory(s.codes, RunAsWritten(v, s, trace).codes)
    decreases |trace|
  {
    if |trace| > 0 {
      var s1 := StepAsWritten(v, s, trace[0]);
      if trace[0].request.RegisterReq? {
        AsWrittenRegisterCodeHistory(s, trace[0].request.registration, trace[0].now);
      } else {
        StepCodeHistory(v, s, trace[0]);
      }
      AsWrittenRunCodeHistory(v, s1, trace[1..]);
      CodeHistoryTransitive(s.codes, s1.codes, RunAsWritten(v, s, trace).codes);
    }
  }

  /**
   * The same holds for both files as written: a registration that fails
   * halfway can spend a code, but never frees one.
   */
  lemma CodeAdmitsOneRegistrationAsWritten(v: Variant, s: State, req: Registration, now: int, trace: seq<Timed>, req2: Registration, now2: int)
    requires UniqueCodes(s.codes)
    requires RegisterAsWritten(s, req, now).result.Ok? && Truthy(req.invitationCode)
    requires req2.invitationCode == req.invitationCode
    ensures RegisterAsWritten(RunAsWritten(v, RegisterAsWritten(s, req, now).state, trace), req2, now2).result.Err?
  {
    var s1 := Register(s, req, now).state;
    RegisteredCodeSpent(s, req, now);
    RegisterCodeHistory(s, req, now);
    AsWrittenRunCodeHistory(v, s1, trace);
    SpentCodeStaysSpent(s1.codes, RunAsWritten(v, s1, trace).codes, req.invitationCode.value);
  }

  // ---------------------------------------------------------------- server.js lets the quota be bypassed

  /**
   * In server.js a save whose body does not claim `user_type` 'trial'
   * succeeds for any existing user, expired or at quota, adds a record and
   * leaves the trial count alone.
   */
  lemma ServerSaveIgnoresStoredType(s: State, req: RecordRequest, now: int)
    requires KnownUser(s, req) && IsInteger(req.userId.value)
    requires req.userType != Some("trial")
    requires req.matchName.Some? && req.handicapType.Some?
    ensures var r := SaveRecord(ServerJs, s, req, now);
      var uid := req.userId.value;
      && r.result.Ok?
      && HasUser(r.state, uid)
      && UserOf(r.state, uid) == UserOf(s, uid)
      && Owned(r.state.records, uid) == Owned(s.records, uid) + 1
  {
    var uid := req.userId.value;
    OwnedAppend(s.records, StoredRow(ServerJs, req, uid, s.nextRecordId, now), uid);
  }

  /** `n` identical server.js saves, one after another. */
  function SaveRepeatedly(s: State, req: RecordRequest, now: int, n: nat): State
    decreases n
  {
    if n == 0 then s else SaveRepeatedly(SaveRecord(ServerJs, s, req, now).state, req, now, n - 1)
  }

  /** Repeated saves that do not claim trial add one record each and never touch the user. */
  lemma {:induction false} ServerSavesWithoutLimit(s: State, req: RecordRequest, now: int, n: nat)
    requires KnownUser(s, req) && IsInteger(req.userId.value)
    requires req.userType != Some("trial")
    requires req.matchName.Some? && req.handicapType.Some?
    ensures var s' := SaveRepeatedly(s, req, now, n);
      var uid := req.userId.value;
      && HasUser(s', uid)
      && UserOf(s', uid) == UserOf(s, uid)
      && Owned(s'.records, uid) == Owned(s.records, uid) + n
    decreases n
  {
    if n > 0 {
      ServerSaveIgnoresStoredType(s, req, now);
      ServerSavesWithoutLimit(SaveRecord(ServerJs, s, req, now).state, req, now, n - 1);
    }
  }

  /**
   * A concrete run of server.js: a fresh trial user, valid after
   * registration, stores one record more than the quota without its trial
   * count moving, so `Valid` does not hold for server.js.
   */
  lemma ServerBreaksQuota()
    ensures var s1 := Register(State([], [], [], 1), Registration(Some("alice"), Some("pw"), None), 0).state;
      var req := RecordRequest(Some(1), Some("registered"), Some("m"), Some("asian"),
        None, None, None, None, None, None, None, None, None);
      var s2 := SaveRepeatedly(s1, req, 1, TrialQuota + 1);
      && Valid(s1)
      && HasUser(s2, 1)
      && UserOf(s2, 1).userType == Trial
      && UserOf(s2, 1).trialCount == 0
      && Owned(s2.records, 1) == TrialQuota + 1
      && !Valid(s2)
  {
    var s0 := State([], [], [], 1);
    EmptyIsValid();
    var reg := Registration(Some("alice"), Some("pw"), None);
    RegisterPreservesValid(s0, reg, 0);
    var s1 := Register(s0, reg, 0).state;
    assert s1.records == [];
    assert Owned(s1.records, 1) == 0;
    var req := RecordRequest(Some(1), Some("registered"), Some("m"), Some("asian"),
      None, None, None, None, None, None, None, None, None);
    ServerSavesWithoutLimit(s1, req, 1, TrialQuota + 1);
    var s2 := SaveRepeatedly(s1, req, 1, TrialQuota + 1);
    assert !QuotaHeld(s2) by {
      assert s2.users[0] == UserOf(s2, 1);
    }
  }

  /** In server.js a registered user whose request claims 'trial' is charged against the trial quota. */
  lemma ServerChargesClaimedTrial(s: State, req: RecordRequest, now: int)
    requires KnownUser(s, req) && IsInteger(req.userId.value)
    requires UserOf(s, req.userId.value).userType == Registered
    requires req.userType == Some("trial")
    requires now <= TrialEndInstant(UserOf(s, req.userId.value))
    requires UserOf(s, req.userId.value).trialCount < TrialQuota
    requires req.matchName.Some? && req.handicapType.Some?
    ensures var r := SaveRecord(ServerJs, s, req, now);
      r.result.Ok? && UserOf(r.state, req.userId.value).trialCount == UserOf(s, req.userId.value).trialCount + 1
  {
  }

  // ---------------------------------------------------------------- registration as written

  /**
   * With the statements run one by one, a registration that presents a valid
   * code but no password consumes the code and creates no user: the used
   * code then names nobody.
   */
  lemma RegisterAsWrittenLeaksCode()
    ensures var s := State([], [FreshCode("C", Some("admin"), 0)], [], 1);
      var r := RegisterAsWritten(s, Registration(Some("bob"), None, Some("C")), 5);
      && Valid(s)
      && r.result == Err(InternalError)
      && r.state.users == []
      && r.state.codes[0].isUsed && r.state.codes[0].usedBy == Some("bob")
      && !Valid(r.state)
  {
    var s := State([], [FreshCode("C", Some("admin"), 0)], [], 1);
    var req := Registration(Some("bob"), None, Some("C"));
    assert CodeAvailable(s.codes, "C") by {
      assert s.codes[0].code == "C" && !s.codes[0].isUsed;
    }
    var r := RegisterAsWritten(s, req, 5);
    assert r.state.codes[0].isUsed;
    assert !RegisteredName(r.state.users, "bob");
  }

  /** The atomic registration never fails halfway: a failed one leaves the code table as it was. */
  lemma RegisterFailsWhole(s: State, req: Registration, now: int)
    requires Register(s, req, now).result.Err?
    ensures Register(s, req, now).state.codes == s.codes
    ensures RegisterAsWritten(s, req, now).result == Register(s, req, now).result
  {
  }
}

=== FILE: wrappers.dfy ===
/** Optional values and results with an error, as used by every handler of the model. */
module Wrappers {

  /** A value that may be absent: a JSON field that is missing or null, a nullable column. */
  datatype Option<+T> = None | Some(value: T) {

    /** The wrapped value, or `default` when absent. */
    function GetOr(default: T): T {
      match this
      case Some(v) => v
      case None => default
    }
  }

  /** The outcome of a handler: a value on success, an error otherwise. */
  datatype Result<+T, +E> = Ok(value: T) | Err(error: E)
}
